=== FILE: README.md ===
# A* pathfinding visualiser — Dafny model

This project models the search core of a small pygame A* visualiser. It also models the editing rules around that core.

- **The grid.** The grid is `rows × rows` nodes (`make_grid`). Each node has a position, a pixel origin and a colour role. The roles are free, closed, open, barrier, start, end and path.
- **Neighbours.** `update_neighbors` derives a node's neighbours from the colours: the in-bounds, non-barrier cells one step away, listed down, up, right, left.
- **Heuristic.** `h` is the Manhattan distance.
- **The search.** `algorithm` keeps `g_score`, `f_score` and `came_from`, a `PriorityQueue` of `(f, count, node)` entries, and the membership set `open_set_hash`. It pops a minimal entry and relaxes the popped node's neighbours. Improved neighbours are pushed and coloured open; expanded nodes are coloured closed. When `end` is popped, `reconstruct_path` colours the predecessor chain.
- **Editing.** `get_clicked_pos` maps a mouse position to a cell. The left and right mouse buttons choose the start, the end and the barriers. `ran_maze` scatters random barriers.

Files, each one module:

- `options.dfy`: `Option`.
- `positions.dfy`: positions, `InBounds`, `h`.
- `grid.dfy`: colours, nodes, the grid, `make_grid`, `update_neighbors`.
- `frontier.dfy`: the queue entries, Python's tuple order, pop-min and push.
- `astar.dfy`: the search state, one function per step, the run's invariant, `reconstruct_path` and `algorithm`.
- `clicks.dfy`: `get_clicked_pos`, the click rules and `ran_maze`.

Modelling choices:

- **Node identity.** A node is identified by its `(row, col)` position. Every grid cell is a distinct Python object, so identity and position coincide.
- **Infinite scores.** A `g_score`/`f_score` of `float("inf")` is modelled as an absent map key.
- **Colours.** Colours are modelled as roles, because the source only ever compares colours for equality.
- **Neighbour lists.** The lists are computed from the colours the grid has before the run. The search recolours nodes but never recomputes the lists.
- **`draw`.** The `draw` callback is a no-op.
- **The search loop.** `algorithm`'s loop is given a step budget `fuel`. Running out of it is a third outcome, `OutOfFuel`, which the source does not have.
- **Random draws.** `ran_maze`'s `random.randint(1, 10)` draws are a parameter.
- **Floor division.** Python's `//` is modelled by `Clicks.FloorDiv`, which rounds down for either sign of divisor. Dafny's `/` matches it only for a positive divisor. It is used as is in `make_grid`, where both operands are non-negative.

Three behaviours of the code are easy to misread; the model follows the code:

- **One queue entry per cell.** A cell that is already in `open_set_hash` is never pushed again. So each queued cell has exactly one queue entry, though its priority may be stale. There are never several entries for one cell (source.py:166-172).
- **When `make_grid` fails.** It fails only for `rows == 0`, through ZeroDivisionError. A width smaller than `rows` gives nodes of width 0 rather than an error.
- **No check on pop.** A popped cell is expanded without comparing its priority to its current score.

## Model

| member | source | states |
|---|---|---|
| Positions.HIsMetric | source.py:99-102 | `h` is symmetric, is 0 exactly on equal positions, and obeys the triangle inequality |
| Positions.HConsistent | source.py:99-102 | across one grid step, `h` to any target changes by at most one in either direction |
| Grid.SetColor | source.py:57-76 | a setter recolours exactly one node; every other node, and every position and pixel field, is unchanged |
| Grid.MakeGrid | source.py:186-196 | fails exactly when `rows == 0`; otherwise `rows` rows of `rows` white nodes, node `[i][j]` at row `i`, column `j`, origin `(i*gap, j*gap)`, width `gap = width // rows` |
| Grid.Neighbors | source.py:81-93 | the neighbours are exactly the in-bounds, non-barrier cells one step away; at most 4, never the node itself, in the order down, up, right, left |
| Frontier.DistinctCountsDecideOrder | source.py:95-96 | with distinct counters, any two entries are ordered by `(f, count)` alone, so `Node.__lt__` never decides |
| Frontier.MinimalUnique | source.py:142 | with distinct counters the queue has one minimal entry, so what `get()` returns does not depend on the heap layout |
| Frontier.PopMin | source.py:142 | `get()` returns an entry of the queue that no other entry is smaller than, and leaves the rest as a multiset |
| Frontier.PopMinCells | source.py:142-145 | popping keeps the queue free of duplicate cells and counters and removes exactly the popped cell |
| Frontier.Push | source.py:171 | `put` adds exactly one entry and its cell |
| Frontier.PushKeepsDistinct | source.py:167-172 | pushing a cell that is not queued, under a counter larger than all others, keeps cells and counters distinct |
| AStar.Init | source.py:113-133 | the initial tables satisfy the run's invariant: start has cost 0, no predecessor and the only entry `(0, 0, start)` |
| AStar.Pop | source.py:142-145 | `get()` takes the minimal entry off the queue: the queue loses exactly that entry, as a multiset; `open_set_hash` loses exactly the popped cell; the scores, `came_from`, `count` and colours are unchanged. The invariant is kept, and the popped cell has a known cost |
| AStar.Relax | source.py:154-175 | when `g[current] + 1` does not beat the neighbour's cost, nothing changes. Otherwise the neighbour gets cost `g[current] + 1`, predecessor `current` and `f = g + h(., end)`, and no other table entry changes. If the neighbour was not queued, it is also pushed as `(f, count + 1, nb)`, added to `open_set_hash` and coloured open. If it was queued, the queue, `open_set_hash`, `count` and colours are unchanged |
| AStar.RelaxKeepsInv | source.py:154-175 | each relaxation keeps the invariant: start costs 0 with no predecessor; every link joins grid neighbours and goes to a strictly cheaper cell; a cell is in `open_set_hash` iff it has exactly one entry; counters are distinct; barriers and start keep their colour |
| AStar.Expand | source.py:154-175 | the neighbour loop relaxes the neighbours one after another in `update_neighbors` order (`AStar.RelaxAll`). Afterwards every neighbour of the popped cell has cost at most `g[current] + 1`, no cell loses its cost and no cost rises, and the invariant still holds. A cell that is not a neighbour keeps its cost, its `came_from` link and its colour, and every link that changed points to `current` |
| AStar.RelaxAllKeepsInv | source.py:154-175 | relaxing any list of neighbours in order keeps the invariant; `current` keeps its cost, no cost rises, and each listed neighbour ends at most `g[current] + 1` |
| AStar.RelaxAllFramed | source.py:154-175 | relaxing a list of cells changes costs, links and colours only at those cells, and every changed link points to `current` |
| AStar.ExpandFramed | source.py:154-175 | the same frame for the neighbour list of `current`, stated with the grid's step relation: cells that are not neighbours keep their cost, link and colour |
| AStar.Close | source.py:179-181 | the popped cell is coloured closed unless it is `start`; no other node changes |
| AStar.CloseKeepsInv | source.py:179-181 | closing an expanded cell other than `end` keeps the invariant |
| AStar.Search | source.py:136-152 | the main loop keeps the invariant. On True, the final state is what popping `end` as the minimal entry of the previous state gives, so `end` has a known cost and is no longer in `open_set_hash`. On False, the queue is empty |
| AStar.ReconstructPath | source.py:105-110 | the cells coloured follow `came_from` back from `end` to a cell without a predecessor, with strictly falling costs, at most `g[end]` of them; only they change colour, and they become path |
| AStar.FoundFacts | source.py:105-110 | the walk back from `end` stops at `start`, repeats no cell, and read forwards is a walk of grid steps from `start` to `end` |
| AStar.ExhaustedMeansUnreachable | source.py:183 | when the queue runs empty, `end` never got a cost and no walk of grid steps leads from `start` to `end` |
| AStar.HAdmissible | source.py:99-102 | `h` never exceeds the number of steps of a walk between the two cells |
| AStar.Finish | source.py:148-152 | on reaching `end`, `path` is the `came_from` chain from `end` read forwards: a walk from `start` to `end` with no repeated cell, of between `h(start, end)` and `g[end]` steps. The chain's cells become path, `start` and `end` get their colours back, and every other cell keeps its colour |
| AStar.Algorithm | source.py:112-183 | on True: `path` is the coloured `came_from` chain read forwards, a walk from `start` to `end` that repeats no cell. On False: `end` is unreachable from `start`. Always: barriers other than `start` are never recoloured, cells the search never reached keep their colour, and `start` is never closed |
| Clicks.FloorDiv | source.py:230-234 | Python's `//`, the floor of `a / b`: for positive `b`, `a` lies in `[q*b, q*b + b)`; for negative `b`, in `(q*b + b, q*b]` |
| Clicks.GetClickedPos | source.py:229-235 | fails exactly on a zero divisor; otherwise the cell is the one whose pixel band holds each coordinate, the first coordinate giving the row. A negative width gives a negative gap, and the bands run downwards as Python's floor division makes them |
| Clicks.ClickInvertsLayout | source.py:229-235 | any pixel `(node.x + dy, node.y + dx)` with `0 <= dy, dx < gap` maps back to the node's `(row, col)` |
| Clicks.ClickInRange | source.py:229-235 | a position in `[0, rows*gap)` on both axes maps to a cell of the grid |
| Clicks.WindowClicksInGrid | source.py:239-262 | with 50 rows in the 800-pixel window, every mouse position gives a valid `grid[row][col]` |
| Clicks.ValidDistinct | source.py:264-273 | when both are chosen, start and end are different cells |
| Clicks.FreshSelectionValid | source.py:239-243 | a fresh white grid with nothing chosen satisfies the selection invariant (start-up and the `c` key) |
| Clicks.LeftClick | source.py:259-273 | a left click changes only the clicked node and never moves or clears a chosen start or end. With no start chosen, the cell becomes the start unless it is the end. Otherwise, with no end chosen, it becomes the end unless it is the start. With both chosen, it becomes a barrier unless it is one of them. Clicking the start or the end does nothing |
| Clicks.LeftClickKeepsValid | source.py:259-273 | a left click keeps colours in step with the selection, so the start stays start-coloured and the end end-coloured; in particular neither becomes a barrier |
| Clicks.RightClick | source.py:276-286 | a right click makes the clicked node white, changes no other node, and clears exactly whichever of start and end was that cell |
| Clicks.RightClickKeepsValid | source.py:276-286 | a right click keeps colours in step with the selection |
| Clicks.RightThenLeftRestores | source.py:259-286 | right-clicking the start and then left-clicking the same cell restores the selection; so does the same for the end while a start is chosen |
| Clicks.RanMaze | source.py:199-205 | each node becomes a barrier exactly when its draw is below 4 and it is neither start nor end; every other node is unchanged |
| Clicks.MazeKeepsValid | source.py:204 | the random maze never bars the start or the end, and keeps colours in step with the selection |

## Left out

- pygame rendering and input: the window, `Node.draw`, `draw_grid`, `draw`, the event loop, and the `pygame.QUIT` polling inside `algorithm`. The `draw` callback is a no-op, and mouse positions and key presses are parameters.
- The RGB values of the colours: only roles are modelled.
- The internals of `PriorityQueue`: only its observable pop-min is modelled.
- Termination of `algorithm`'s loop is not proved. The loop runs under a step budget, and `OutOfFuel` covers a budget that runs out first.
- The space key: it calls `update_neighbors` on every node and then `algorithm`, both modelled above. With start or end unset, the source crashes on `None`; that crash is not modelled.
- The `c` key: it resets to a fresh `make_grid` with nothing chosen, which is `Grid.MakeGrid` and `Clicks.FreshSelectionValid`.
- Clicks outside the grid are not modelled: `Clicks.LeftClick` and `Clicks.RightClick` require an in-bounds cell. Outside the grid, Python would raise IndexError or wrap a negative index. `Clicks.WindowClicksInGrid` shows this cannot happen in the 800-pixel window with 50 rows.
- Negative dimensions: `make_grid`'s `rows` and `width` are natural numbers.
- AStar.RelaxKeepsInv: states each `came_from` link as going to a strictly cheaper cell (`g[came_from[n]] < g[n]`), not `g[n] == g[came_from[n]] + 1`. A queued cell keeps a stale priority after it is improved, so a cell can be improved again after it has been expanded. Its successors' links then no longer satisfy the equality. The strict version is what survives this.
- AStar.Algorithm: the walk back from `end` is proved to have between `h(start, end)` and `g[end]` steps, not exactly `g[end]`, for the reason above. Shortest-path optimality is not claimed either: stale priorities mean cells are not expanded in true `f` order.
- AStar.Finish: the same bound as `AStar.Algorithm`, `|marked| <= g[end]` rather than equality.
- AStar.ReconstructPath: the same bound, at most `g[end]` steps.

=== FILE: astar.dfy ===
/** The A* search of `algorithm` and `reconstruct_path`: the cost and
    predecessor tables, the frontier discipline, and what a run's outcome
    says about reachability in the neighbour graph. */
module AStar {
  import opened Options
  import opened Positions
  import opened Grid
  import opened Frontier

  /** How a run ends: `end` was popped (the source returns True), the queue
      ran empty (False), or the step budget ran out first. */
  datatype Outcome = Found | Exhausted | OutOfFuel

  /** The locals of one run of `algorithm`, plus the node colours it sets.
      An absent `gScore` or `fScore` key stands for `float("inf")`. */
  datatype State = State(
    queue: seq<Entry>,
    count: nat,
    openHash: set<Pos>,
    gScore: map<Pos, nat>,
    fScore: map<Pos, nat>,
    cameFrom: map<Pos, Pos>,
    view: Grid)

  // ----- Walks in the neighbour graph -----

  /** `w` is a walk of grid steps onto non-barrier cells. */
  predicate IsWalk(g: Grid, n: nat, w: seq<Pos>)
    requires WellFormed(g, n)
  {
    |w| > 0 && InBounds(w[0], n) && forall i :: 0 <= i < |w| - 1 ==> Edge(g, n, w[i], w[i + 1])
  }

  ghost predicate Reachable(g: Grid, n: nat, a: Pos, b: Pos)
    requires WellFormed(g, n)
  {
    exists w :: IsWalk(g, n, w) && w[0] == a && w[|w| - 1] == b
  }

  predicate Distinct(w: seq<Pos>) {
    forall i, j :: 0 <= i < j < |w| ==> w[i] != w[j]
  }

  /** The heuristic is admissible: it never exceeds the number of steps of
      a walk between its two ends. */
  lemma {:induction false} HAdmissible(g: Grid, n: nat, w: seq<Pos>)
    requires WellFormed(g, n) && IsWalk(g, n, w)
    ensures H(w[0], w[|w| - 1]) <= |w| - 1
    decreases |w|
  {
    if |w| > 1 {
      var w' := w[1..];
      assert Edge(g, n, w[0], w[1]);
      assert forall i :: 0 <= i < |w'| - 1 ==> Edge(g, n, w'[i], w'[i + 1]) by {
        forall i | 0 <= i < |w'| - 1 ensures Edge(g, n, w'[i], w'[i + 1]) {
          assert w'[i] == w[i + 1] && w'[i + 1] == w[i + 2];
        }
      }
      HAdmissible(g, n, w');
      assert w'[0] == w[1] && w'[|w'| - 1] == w[|w| - 1];
      assert H(w[0], w[1]) == 1;
      HIsMetric(w[0], w[1], w[|w| - 1]);
    }
  }

  /** A walk that starts inside a set closed under `Edge` never leaves it. */
  lemma {:induction false} WalkStaysInside(g: Grid, n: nat, S: set<Pos>, w: seq<Pos>)
    requires WellFormed(g, n) && IsWalk(g, n, w) && w[0] in S
    requires forall p, q :: p in S && Edge(g, n, p, q) ==> q in S
    ensures forall i :: 0 <= i < |w| ==> w[i] in S
    decreases |w|
  {
    if |w| > 1 {
      var w' := w[..|w| - 1];
      assert forall i :: 0 <= i < |w'| - 1 ==> Edge(g, n, w'[i], w'[i + 1]) by {
        forall i | 0 <= i < |w'| - 1 ensures Edge(g, n, w'[i], w'[i + 1]) {
          assert w'[i] == w[i] && w'[i + 1] == w[i + 1];
        }
      }
      WalkStaysInside(g, n, S, w');
      assert Edge(g, n, w[|w| - 2], w[|w| - 1]);
    }
  }

  /** No walk leaves a set closed under `Edge`, so a cell outside it is
      unreachable from a cell inside it. */
  lemma ClosedSetBlocks(g: Grid, n: nat, S: set<Pos>, a: Pos, b: Pos)
    requires WellFormed(g, n) && a in S && b !in S
    requires forall p, q :: p in S && Edge(g, n, p, q) ==> q in S
    ensures forall w :: IsWalk(g, n, w) && w[0] == a ==> w[|w| - 1] != b
    ensures !Reachable(g, n, a, b)
  {
    forall w | IsWalk(g, n, w) && w[0] == a ensures w[|w| - 1] != b {
      WalkStaysInside(g, n, S, w);
    }
  }

  // ----- Predecessor chains -----

  /** Each cell of `w` but the last has the next cell as its `came_from`. */
  predicate FollowsCameFrom(cameFrom: map<Pos, Pos>, w: seq<Pos>) {
    forall i :: 0 <= i < |w| - 1 ==> w[i] in cameFrom && cameFrom[w[i]] == w[i + 1]
  }

  /** Costs strictly fall along `w`. */
  predicate CostFalls(gScore: map<Pos, nat>, w: seq<Pos>) {
    (forall i :: 0 <= i < |w| ==> w[i] in gScore) &&
    forall i :: 0 <= i < |w| - 1 ==> gScore[w[i + 1]] < gScore[w[i]]
  }

  lemma {:induction false} CostFallsDistinct(gScore: map<Pos, nat>, w: seq<Pos>)
    requires CostFalls(gScore, w)
    ensures forall i, j :: 0 <= i < j < |w| ==> gScore[w[j]] < gScore[w[i]]
    ensures Distinct(w)
    decreases |w|
  {
    if |w| > 1 {
      var w' := w[..|w| - 1];
      assert CostFalls(gScore, w');
      CostFallsDistinct(gScore, w');
      assert forall i :: 0 <= i < |w'| ==> w'[i] == w[i];
      var last := |w| - 1;
      forall i | 0 <= i < last ensures gScore[w[last]] < gScore[w[i]] {
        if i < last - 1 {
          assert gScore[w'[last - 1]] < gScore[w'[i]];
        }
      }
    }
  }

  /** A chain of `came_from` links whose links are grid edges, read
      backwards, is a walk. */
  lemma ChainIsWalk(g: Grid, n: nat, cameFrom: map<Pos, Pos>, w: seq<Pos>, r: seq<Pos>)
    requires WellFormed(g, n) && |w| > 0 && InBounds(w[0], n)
    requires FollowsCameFrom(cameFrom, w)
    requires forall p :: p in cameFrom ==> Edge(g, n, cameFrom[p], p)
    requires Reversed(r, w)
    ensures IsWalk(g, n, r)
  {
    var L := |w|;
    if L > 1 {
      forall i | 0 <= i < L - 1 ensures Edge(g, n, r[i], r[i + 1]) {
        var k := L - 2 - i;
        assert r[i] == w[k + 1] && r[i + 1] == w[k];
        assert w[k] in cameFrom;
      }
      assert Edge(g, n, r[0], r[1]);
    }
  }

  /** `r` is `w` read backwards. */
  predicate Reversed(r: seq<Pos>, w: seq<Pos>) {
    |r| == |w| && forall i :: 0 <= i < |w| ==> r[i] == w[|w| - 1 - i]
  }

  /** Reading a walk backwards keeps it free of repeated cells. */
  lemma ReversedDistinct(r: seq<Pos>, w: seq<Pos>)
    requires Reversed(r, w) && Distinct(w)
    ensures Distinct(r)
  {
    forall i, j | 0 <= i < j < |r| ensures r[i] != r[j] {
      assert r[i] == w[|w| - 1 - i] && r[j] == w[|w| - 1 - j];
    }
  }

  /** `reconstruct_path(came_from, end, draw)`: walk `came_from` back from
      `end`, colouring each predecessor met as path. `marked` lists the
      cells coloured, in order, and `path` is the same walk read forwards,
      ending at `end`; `gScore` only witnesses termination. */
  method ReconstructPath(cameFrom: map<Pos, Pos>, end: Pos, view: Grid, n: nat, ghost gScore: map<Pos, nat>)
    returns (marked: seq<Pos>, path: seq<Pos>, view': Grid)
    requires WellFormed(view, n) && end in gScore
    requires forall p :: p in cameFrom ==>
               p in gScore && cameFrom[p] in gScore && InBounds(cameFrom[p], n) && gScore[cameFrom[p]] < gScore[p]
    ensures FollowsCameFrom(cameFrom, [end] + marked)
    ensures ([end] + marked)[|marked|] !in cameFrom
    ensures CostFalls(gScore, [end] + marked)
    ensures |marked| <= gScore[end]
    ensures Reversed(path, [end] + marked)
    ensures WellFormed(view', n) && SameLayout(view, view', n)
    ensures forall p :: p in marked ==> InBounds(p, n) && At(view', n, p).color == Path
    ensures forall p :: InBounds(p, n) && p !in marked ==> At(view', n, p) == At(view, n, p)
  {
    var current := end;
    marked := [];
    path := [end];
    view' := view;
    while current in cameFrom
      invariant current in gScore && ([end] + marked)[|marked|] == current
      invariant FollowsCameFrom(cameFrom, [end] + marked)
      invariant CostFalls(gScore, [end] + marked)
      invariant |marked| + gScore[current] <= gScore[end]
      invariant Reversed(path, [end] + marked)
      invariant WellFormed(view', n) && SameLayout(view, view', n)
      invariant forall p :: p in marked ==> InBounds(p, n) && At(view', n, p).color == Path
      invariant forall p :: InBounds(p, n) && p !in marked ==> At(view', n, p) == At(view, n, p)
      decreases gScore[current]
    {
      var w := [end] + marked;
      current := cameFrom[current];
      var v := SetColor(view', n, current, Path);
      SameLayoutTrans(view, view', v, n);
      view' := v;
      marked := marked + [current];
      path := [current] + path;
      assert [end] + marked == w + [current];
    }
  }

  // ----- The run's invariant -----

  /** Cost tables: `start` costs 0 and has no predecessor, every other known
      cell has one, and `f = g + h(., end)` on every known cell. */
  predicate ScoresOk(n: nat, start: Pos, end: Pos, s: State) {
    && start in s.gScore && s.gScore[start] == 0 && start !in s.cameFrom
    && (forall p {:trigger p in s.gScore} :: p in s.gScore ==> InBounds(p, n))
    && s.cameFrom.Keys <= s.gScore.Keys
    && s.gScore.Keys - {start} <= s.cameFrom.Keys
    && s.fScore.Keys == s.gScore.Keys
    && (forall p {:trigger s.fScore[p]} :: p in s.fScore ==> s.fScore[p] == s.gScore[p] + H(p, end))
  }

  /** Every `came_from` link joins grid neighbours and goes to a strictly
      cheaper cell. */
  predicate LinksOk(g: Grid, n: nat, s: State)
    requires WellFormed(g, n)
  {
    forall p {:trigger s.cameFrom[p]} :: p in s.cameFrom ==>
      && p in s.gScore && s.cameFrom[p] in s.gScore
      && Edge(g, n, s.cameFrom[p], p)
      && s.gScore[s.cameFrom[p]] < s.gScore[p]
  }

  /** Frontier discipline: a cell is in `open_set_hash` iff it has exactly
      one queue entry; counters are distinct and issued no later than
      `count`; the start entry is `(0, 0, start)`; every other entry was
      pushed with an `f` at least the cell's current `f` (it may be stale). */
  predicate QueueOk(start: Pos, s: State) {
    && PosDistinct(s.queue) && CountsDistinct(s.queue)
    && Cells(s.queue) == s.openHash
    && s.openHash <= s.fScore.Keys
    && (forall e {:trigger e in s.queue} :: e in s.queue ==> e.count <= s.count)
    && (forall e {:trigger e in s.queue} :: e in s.queue && e.pos == start ==> e == Entry(0, 0, start))
    && (forall e {:trigger e in s.queue} :: e in s.queue && e.pos != start ==> 0 < e.count && e.pos in s.fScore && s.fScore[e.pos] <= e.f)
  }

  /** Every neighbour of `p` has a known cost. */
  ghost predicate Expanded(g: Grid, n: nat, s: State, p: Pos)
    requires WellFormed(g, n) && InBounds(p, n)
  {
    forall q {:trigger Edge(g, n, p, q)} :: Edge(g, n, p, q) ==> q in s.gScore
  }

  /** Every known cell is queued, is the cell being expanded, or is not
      `end` and has all its neighbours known. */
  ghost predicate ClosureOk(g: Grid, n: nat, end: Pos, s: State, current: Option<Pos>)
    requires WellFormed(g, n)
  {
    forall p {:trigger p in s.gScore} :: p in s.gScore ==>
      p in s.openHash || current == Some(p) || (InBounds(p, n) && p != end && Expanded(g, n, s, p))
  }

  /** Colours: only colours change, and only on known cells other than `start`. */
  ghost predicate ViewOk(g: Grid, n: nat, start: Pos, s: State)
    requires WellFormed(g, n)
  {
    && WellFormed(s.view, n) && SameLayout(g, s.view, n)
    && forall p {:trigger At(s.view, n, p)} :: InBounds(p, n) && (p !in s.gScore || p == start) ==> At(s.view, n, p) == At(g, n, p)
  }

  ghost predicate Inv(g: Grid, n: nat, start: Pos, end: Pos, s: State, current: Option<Pos>)
    requires WellFormed(g, n)
  {
    && ScoresOk(n, start, end, s)
    && LinksOk(g, n, s)
    && QueueOk(start, s)
    && ClosureOk(g, n, end, s, current)
    && ViewOk(g, n, start, s)
  }

  /** A known cell other than `start` is reached by a link, so it is no barrier. */
  lemma KnownCellsOpen(g: Grid, n: nat, start: Pos, end: Pos, s: State)
    requires WellFormed(g, n) && ScoresOk(n, start, end, s) && LinksOk(g, n, s)
    ensures forall p :: p in s.gScore && p != start ==> !IsBarrier(g, n, p)
  {
    forall p | p in s.gScore && p != start ensures !IsBarrier(g, n, p) {
      assert p in s.gScore.Keys - {start};
    }
  }

  // ----- The steps of one run -----

  /** The tables as `algorithm` sets them up before its loop; the start
      entry is pushed with priority 0, not `f_score[start]`. */
  function Init(g: Grid, n: nat, start: Pos, end: Pos): (s: State)
    requires WellFormed(g, n) && InBounds(start, n)
    ensures Inv(g, n, start, end, s, None)
    ensures s.openHash == {start} && |s.queue| == 1
  {
    State([Entry(0, 0, start)], 0, {start}, map[start := 0], map[start := H(start, end)], map[], g)
  }

  /** Take a minimal entry off the queue and drop its cell from
      `open_set_hash`; the cell taken is returned with the new state. */
  function Pop(g: Grid, n: nat, start: Pos, end: Pos, s: State): (r: (Pos, State))
    requires WellFormed(g, n) && Inv(g, n, start, end, s, None) && |s.queue| > 0
    ensures r.0 == PopMin(s.queue).entry.pos
    ensures Inv(g, n, start, end, r.1, Some(r.0))
    ensures r.0 in r.1.gScore && r.0 !in r.1.openHash
    ensures multiset(r.1.queue) + multiset{PopMin(s.queue).entry} == multiset(s.queue)
    ensures r.1.openHash == s.openHash - {r.0}
    ensures r.1.gScore == s.gScore && r.1.fScore == s.fScore && r.1.cameFrom == s.cameFrom
    ensures r.1.count == s.count && r.1.view == s.view
  {
    var popped := PopMin(s.queue);
    var current := popped.entry.pos;
    PopMinCells(s.queue);
    assert |multiset(popped.rest)| + 1 == |s.queue|;
    var s' := s.(queue := popped.rest, openHash := s.openHash - {current});
    assert QueueOk(start, s');
    (current, s')
  }

  /** One pass of the neighbour loop: relax `nb` through `current`. An
      improved neighbour gets `current` as predecessor and new `g` and `f`,
      and is pushed and coloured open unless it is already queued. */
  function Relax(g: Grid, n: nat, end: Pos, s: State, current: Pos, nb: Pos): (r: State)
    requires WellFormed(g, n) && WellFormed(s.view, n) && InBounds(nb, n) && current in s.gScore
    ensures nb in r.gScore && r.gScore[nb] <= s.gScore[current] + 1
    ensures r.gScore.Keys == s.gScore.Keys + {nb}
    ensures forall p :: p in s.gScore ==> r.gScore[p] <= s.gScore[p]
    ensures forall p :: p in s.gScore && p != nb ==> r.gScore[p] == s.gScore[p]
    ensures s.openHash <= r.openHash && s.count <= r.count
    ensures WellFormed(r.view, n)
    ensures nb in s.gScore && s.gScore[current] + 1 >= s.gScore[nb] ==> r == s
    ensures nb !in s.gScore || s.gScore[current] + 1 < s.gScore[nb] ==>
              && r.gScore == s.gScore[nb := s.gScore[current] + 1]
              && r.cameFrom == s.cameFrom[nb := current]
              && r.fScore == s.fScore[nb := s.gScore[current] + 1 + H(nb, end)]
    ensures (nb !in s.gScore || s.gScore[current] + 1 < s.gScore[nb]) && nb in s.openHash ==>
              r.queue == s.queue && r.openHash == s.openHash && r.count == s.count && r.view == s.view
    ensures (nb !in s.gScore || s.gScore[current] + 1 < s.gScore[nb]) && nb !in s.openHash ==>
              && r.queue == Push(s.queue, Entry(s.gScore[current] + 1 + H(nb, end), s.count + 1, nb))
              && r.openHash == s.openHash + {nb} && r.count == s.count + 1
              && r.view == SetColor(s.view, n, nb, Open)
  {
    // `temp_g_score < g_score[neighbor]` fails: nothing changes.
    if nb in s.gScore && s.gScore[current] + 1 >= s.gScore[nb] then s
    // `Improve` leaves `open_set_hash` alone, so testing membership
    // before or after the table updates gives the same answer.
    else if nb in s.openHash then Improve(s, end, current, nb, s.gScore[current] + 1)
    else Enqueue(n, Improve(s, end, current, nb, s.gScore[current] + 1),
                 Entry(s.gScore[current] + 1 + H(nb, end), s.count + 1, nb))
  }

  /** The table updates of an improving relaxation. */
  function Improve(s: State, end: Pos, current: Pos, nb: Pos, temp: nat): State {
    s.(cameFrom := s.cameFrom[nb := current],
       gScore := s.gScore[nb := temp],
       fScore := s.fScore[nb := temp + H(nb, end)])
  }

  /** Push entry `e` under its new counter, add its cell to `open_set_hash`
      and colour the cell open. */
  function Enqueue(n: nat, s: State, e: Entry): State
    requires WellFormed(s.view, n) && InBounds(e.pos, n)
  {
    s.(count := e.count, queue := Push(s.queue, e), openHash := s.openHash + {e.pos},
       view := SetColor(s.view, n, e.pos, Open))
  }

  /** Colour the expanded cell closed, unless it is `start`. */
  function Close(n: nat, start: Pos, s: State, current: Pos): (r: State)
    requires WellFormed(s.view, n) && InBounds(current, n) && InBounds(start, n)
    ensures r.(view := s.view) == s
    ensures WellFormed(r.view, n) && SameLayout(s.view, r.view, n)
    ensures current != start ==> At(r.view, n, current).color == Closed
    ensures forall p :: InBounds(p, n) && p != current ==> At(r.view, n, p) == At(s.view, n, p)
    ensures At(r.view, n, start) == At(s.view, n, start)
  {
    if current != start then s.(view := SetColor(s.view, n, current, Closed)) else s
  }

  // ----- Each step keeps the invariant -----

  lemma ImproveKeepsScores(n: nat, start: Pos, end: Pos, s: State, current: Pos, nb: Pos, temp: nat, r: State)
    requires ScoresOk(n, start, end, s) && InBounds(nb, n) && nb != start
    requires r == Improve(s, end, current, nb, temp)
    ensures ScoresOk(n, start, end, r)
  {
  }

  lemma ImproveKeepsLinks(g: Grid, n: nat, s: State, end: Pos, current: Pos, nb: Pos, r: State)
    requires WellFormed(g, n) && LinksOk(g, n, s) && current in s.gScore && current != nb
    requires Edge(g, n, current, nb)
    requires nb !in s.gScore || s.gScore[current] + 1 < s.gScore[nb]
    requires r == Improve(s, end, current, nb, s.gScore[current] + 1)
    ensures LinksOk(g, n, r)
  {
    forall p | p in r.cameFrom
      ensures p in r.gScore && r.cameFrom[p] in r.gScore
      ensures Edge(g, n, r.cameFrom[p], p) && r.gScore[r.cameFrom[p]] < r.gScore[p]
    {
      if p != nb {
        assert r.cameFrom[p] == s.cameFrom[p];
      }
    }
  }

  /** Lowering the `f` of an already queued cell keeps the queue discipline:
      its entry keeps its older, larger priority. */
  lemma ImproveQueuedKeepsQueue(n: nat, start: Pos, end: Pos, s: State, current: Pos, nb: Pos, temp: nat, r: State)
    requires ScoresOk(n, start, end, s) && QueueOk(start, s) && nb != start
    requires nb in s.openHash && temp < s.gScore[nb]
    requires r == Improve(s, end, current, nb, temp)
    ensures QueueOk(start, r)
  {
  }

  /** Improving a cell that has no queue entry leaves the entries' bounds alone. */
  lemma ImproveFreshKeepsQueue(n: nat, start: Pos, end: Pos, s: State, current: Pos, nb: Pos, temp: nat, r: State)
    requires QueueOk(start, s) && nb !in s.openHash
    requires r == Improve(s, end, current, nb, temp)
    ensures QueueOk(start, r)
  {
    CellsMembers(s.queue);
  }

  /** Pushing a cell that is not queued, with the next counter, keeps the
      queue discipline. */
  lemma EnqueueKeepsQueue(n: nat, start: Pos, s: State, e: Entry, r: State)
    requires QueueOk(start, s) && e.pos != start && e.pos !in s.openHash
    requires e.pos in s.fScore && e.f == s.fScore[e.pos] && e.count == s.count + 1
    requires WellFormed(s.view, n) && InBounds(e.pos, n)
    requires r == Enqueue(n, s, e)
    ensures QueueOk(start, r)
  {
    PushKeepsDistinct(s.queue, e);
  }

  /** Known cells stay known and queued cells stay queued; every newly
      known cell is queued. */
  lemma GrowKeepsClosure(g: Grid, n: nat, end: Pos, s: State, r: State, current: Option<Pos>)
    requires WellFormed(g, n) && ClosureOk(g, n, end, s, current)
    requires s.gScore.Keys <= r.gScore.Keys && s.openHash <= r.openHash
    requires forall p :: p in r.gScore && p !in s.gScore ==> p in r.openHash
    ensures ClosureOk(g, n, end, r, current)
  {
    forall p | p in r.gScore && p !in r.openHash && current != Some(p)
      ensures InBounds(p, n) && p != end && Expanded(g, n, r, p)
    {
      assert Expanded(g, n, s, p);
    }
  }

  /** Recolouring a known cell other than `start` keeps the view invariant. */
  lemma RecolorKeepsView(g: Grid, n: nat, start: Pos, s: State, r: State, p: Pos, c: Color)
    requires WellFormed(g, n) && ViewOk(g, n, start, s) && InBounds(p, n)
    requires s.gScore.Keys <= r.gScore.Keys && p in r.gScore && p != start
    requires r.view == SetColor(s.view, n, p, c)
    ensures ViewOk(g, n, start, r)
  {
    SameLayoutTrans(g, s.view, r.view, n);
  }

  // SameScores, TablesOnly, GrowKeepsView and Assemble state nothing deep:
  // they exist so that each step lemma unfolds only the parts of the
  // invariant it needs, which keeps every proof context small.

  /** The cost and link predicates read only the cost and link tables. */
  lemma SameScores(g: Grid, n: nat, start: Pos, end: Pos, s: State, r: State)
    requires WellFormed(g, n)
    requires r.gScore == s.gScore && r.fScore == s.fScore && r.cameFrom == s.cameFrom
    ensures ScoresOk(n, start, end, r) == ScoresOk(n, start, end, s)
    ensures LinksOk(g, n, r) == LinksOk(g, n, s)
  {
  }

  /** The table predicates only read the tables, not the view. */
  lemma TablesOnly(g: Grid, n: nat, start: Pos, end: Pos, s: State, r: State)
    requires WellFormed(g, n) && r == s.(view := r.view)
    ensures ScoresOk(n, start, end, r) == ScoresOk(n, start, end, s)
    ensures LinksOk(g, n, r) == LinksOk(g, n, s)
    ensures QueueOk(start, r) == QueueOk(start, s)
    ensures forall c :: ClosureOk(g, n, end, r, c) == ClosureOk(g, n, end, s, c)
  {
    forall c ensures ClosureOk(g, n, end, r, c) == ClosureOk(g, n, end, s, c) {
      assert forall p :: InBounds(p, n) ==> Expanded(g, n, r, p) == Expanded(g, n, s, p);
    }
  }

  /** More known cells, same colours: the view invariant still holds. */
  lemma GrowKeepsView(g: Grid, n: nat, start: Pos, s: State, r: State)
    requires WellFormed(g, n) && ViewOk(g, n, start, s)
    requires s.gScore.Keys <= r.gScore.Keys && r.view == s.view
    ensures ViewOk(g, n, start, r)
  {
  }

  /** The five parts make up the invariant. */
  lemma Assemble(g: Grid, n: nat, start: Pos, end: Pos, s: State, current: Option<Pos>)
    requires WellFormed(g, n)
    requires ScoresOk(n, start, end, s) && LinksOk(g, n, s) && QueueOk(start, s)
    requires ClosureOk(g, n, end, s, current) && ViewOk(g, n, start, s)
    ensures Inv(g, n, start, end, s, current)
  {
  }

  /** Relaxing through an already queued cell: tables change, view does not. */
  lemma RelaxQueuedKeepsInv(g: Grid, n: nat, start: Pos, end: Pos, s: State, current: Pos, nb: Pos, r: State)
    requires WellFormed(g, n) && Inv(g, n, start, end, s, Some(current)) && current in s.gScore
    requires Edge(g, n, current, nb) && nb != start && nb != current && nb in s.openHash
    requires s.gScore[current] + 1 < s.gScore[nb]
    requires r == Improve(s, end, current, nb, s.gScore[current] + 1)
    ensures Inv(g, n, start, end, r, Some(current))
  {
    var temp := s.gScore[current] + 1;
    ImproveKeepsScores(n, start, end, s, current, nb, temp, r);
    ImproveKeepsLinks(g, n, s, end, current, nb, r);
    ImproveQueuedKeepsQueue(n, start, end, s, current, nb, temp, r);
    GrowKeepsClosure(g, n, end, s, r, Some(current));
    GrowKeepsView(g, n, start, s, r);
    Assemble(g, n, start, end, r, Some(current));
  }

  /** Pushing a newly improved cell keeps the cost and link tables sound. */
  lemma RelaxFreshKeepsTables(g: Grid, n: nat, start: Pos, end: Pos, s: State, current: Pos, nb: Pos, r: State)
    requires WellFormed(g, n) && ScoresOk(n, start, end, s) && LinksOk(g, n, s) && WellFormed(s.view, n)
    requires current in s.gScore && Edge(g, n, current, nb) && nb != start && nb != current
    requires nb !in s.gScore || s.gScore[current] + 1 < s.gScore[nb]
    requires r == Enqueue(n, Improve(s, end, current, nb, s.gScore[current] + 1),
                          Entry(s.gScore[current] + 1 + H(nb, end), s.count + 1, nb))
    ensures ScoresOk(n, start, end, r) && LinksOk(g, n, r)
  {
    ImproveKeepsScores(n, start, end, s, current, nb, s.gScore[current] + 1, Improve(s, end, current, nb, s.gScore[current] + 1));
    ImproveKeepsLinks(g, n, s, end, current, nb, Improve(s, end, current, nb, s.gScore[current] + 1));
    SameScores(g, n, start, end, Improve(s, end, current, nb, s.gScore[current] + 1), r);
  }

  /** Pushing a newly improved cell keeps the queue discipline. */
  lemma RelaxFreshKeepsQueue(n: nat, start: Pos, end: Pos, s: State, current: Pos, nb: Pos, r: State)
    requires QueueOk(start, s) && WellFormed(s.view, n) && InBounds(nb, n)
    requires current in s.gScore && nb != start && nb !in s.openHash
    requires r == Enqueue(n, Improve(s, end, current, nb, s.gScore[current] + 1),
                          Entry(s.gScore[current] + 1 + H(nb, end), s.count + 1, nb))
    ensures QueueOk(start, r)
  {
    ImproveFreshKeepsQueue(n, start, end, s, current, nb, s.gScore[current] + 1, Improve(s, end, current, nb, s.gScore[current] + 1));
    EnqueueKeepsQueue(n, start, Improve(s, end, current, nb, s.gScore[current] + 1),
                      Entry(s.gScore[current] + 1 + H(nb, end), s.count + 1, nb), r);
  }

  /** Relaxing a cell that is not queued: tables change and it is pushed. */
  lemma RelaxFreshKeepsInv(g: Grid, n: nat, start: Pos, end: Pos, s: State, current: Pos, nb: Pos, r: State)
    requires WellFormed(g, n) && Inv(g, n, start, end, s, Some(current)) && current in s.gScore
    requires Edge(g, n, current, nb) && nb != start && nb != current && nb !in s.openHash
    requires nb !in s.gScore || s.gScore[current] + 1 < s.gScore[nb]
    requires r == Enqueue(n, Improve(s, end, current, nb, s.gScore[current] + 1),
                          Entry(s.gScore[current] + 1 + H(nb, end), s.count + 1, nb))
    ensures Inv(g, n, start, end, r, Some(current))
  {
    RelaxFreshKeepsTables(g, n, start, end, s, current, nb, r);
    RelaxFreshKeepsQueue(n, start, end, s, current, nb, r);
    GrowKeepsClosure(g, n, end, s, r, Some(current));
    RecolorKeepsView(g, n, start, s, r, nb, Open);
    Assemble(g, n, start, end, r, Some(current));
  }

  /** An improving relaxation of a queued cell only updates the tables. */
  lemma RelaxQueued(g: Grid, n: nat, end: Pos, s: State, current: Pos, nb: Pos, r: State)
    requires WellFormed(g, n) && WellFormed(s.view, n) && InBounds(nb, n) && current in s.gScore
    requires r == Relax(g, n, end, s, current, nb)
    requires (nb !in s.gScore || s.gScore[current] + 1 < s.gScore[nb]) && nb in s.openHash
    ensures r == Improve(s, end, current, nb, s.gScore[current] + 1)
  {
  }

  /** An improving relaxation of a cell that is not queued also pushes it. */
  lemma RelaxFresh(g: Grid, n: nat, end: Pos, s: State, current: Pos, nb: Pos, r: State)
    requires WellFormed(g, n) && WellFormed(s.view, n) && InBounds(nb, n) && current in s.gScore
    requires r == Relax(g, n, end, s, current, nb)
    requires (nb !in s.gScore || s.gScore[current] + 1 < s.gScore[nb]) && nb !in s.openHash
    ensures r == Enqueue(n, Improve(s, end, current, nb, s.gScore[current] + 1),
                         Entry(s.gScore[current] + 1 + H(nb, end), s.count + 1, nb))
  {
  }

  /** Each pass of the neighbour loop keeps the invariant. */
  lemma RelaxKeepsInv(g: Grid, n: nat, start: Pos, end: Pos, s: State, current: Pos, nb: Pos, r: State)
    requires WellFormed(g, n) && Inv(g, n, start, end, s, Some(current)) && current in s.gScore
    requires Edge(g, n, current, nb)
    requires r == Relax(g, n, end, s, current, nb)
    ensures Inv(g, n, start, end, r, Some(current))
    ensures nb in r.gScore && forall p :: p in s.gScore ==> p in r.gScore
  {
    if nb !in s.gScore || s.gScore[current] + 1 < s.gScore[nb] {
      if nb in s.openHash {
        RelaxQueued(g, n, end, s, current, nb, r);
        RelaxQueuedKeepsInv(g, n, start, end, s, current, nb, r);
      } else {
        RelaxFresh(g, n, end, s, current, nb, r);
        RelaxFreshKeepsInv(g, n, start, end, s, current, nb, r);
      }
    }
  }

  /** Closing an expanded cell other than `end` keeps the invariant. */
  lemma CloseKeepsInv(g: Grid, n: nat, start: Pos, end: Pos, s: State, current: Pos)
    requires WellFormed(g, n) && Inv(g, n, start, end, s, Some(current)) && current in s.gScore
    requires InBounds(current, n) && InBounds(start, n) && current != end && Expanded(g, n, s, current)
    ensures Inv(g, n, start, end, Close(n, start, s, current), None)
  {
    var r := Close(n, start, s, current);
    TablesOnly(g, n, start, end, s, r);
    CloseKeepsClosure(g, n, end, s, current);
    if current != start {
      RecolorKeepsView(g, n, start, s, r, current, Closed);
    }
  }

  lemma CloseKeepsClosure(g: Grid, n: nat, end: Pos, s: State, current: Pos)
    requires WellFormed(g, n) && ClosureOk(g, n, end, s, Some(current))
    requires InBounds(current, n) && current != end && Expanded(g, n, s, current)
    ensures ClosureOk(g, n, end, s, None)
  {
  }

  // ----- What a run's outcome tells -----

  /** When the queue is empty, the known cells are closed under the
      neighbour relation, contain `start` and miss `end`. */
  lemma ExhaustedMeansUnreachable(g: Grid, n: nat, start: Pos, end: Pos, s: State)
    requires WellFormed(g, n) && ScoresOk(n, start, end, s) && QueueOk(start, s)
    requires ClosureOk(g, n, end, s, None) && |s.queue| == 0
    ensures s.openHash == {} && end !in s.gScore
    ensures !Reachable(g, n, start, end)
  {
    assert s.openHash == {};
    var S := s.gScore.Keys;
    forall p, q | p in S && Edge(g, n, p, q) ensures q in S {
      assert Expanded(g, n, s, p);
      assert q in Neighbors(g, n, p);
    }
    ClosedSetBlocks(g, n, S, start, end);
  }

  /** What the walk back from a popped `end` satisfies. */
  lemma FoundFacts(g: Grid, n: nat, start: Pos, end: Pos, s: State, marked: seq<Pos>, path: seq<Pos>)
    requires WellFormed(g, n) && ScoresOk(n, start, end, s) && LinksOk(g, n, s)
    requires end in s.gScore
    requires FollowsCameFrom(s.cameFrom, [end] + marked)
    requires ([end] + marked)[|marked|] !in s.cameFrom
    requires CostFalls(s.gScore, [end] + marked)
    requires Reversed(path, [end] + marked)
    ensures ([end] + marked)[|marked|] == start
    ensures Distinct([end] + marked)
    ensures IsWalk(g, n, path) && path[0] == start && path[|path| - 1] == end
    ensures H(start, end) <= |marked|
    ensures Reachable(g, n, start, end)
    ensures forall p :: p in marked ==> p in s.gScore && p != end
  {
    var w := [end] + marked;
    CostFallsDistinct(s.gScore, w);
    ChainIsWalk(g, n, s.cameFrom, w, path);
    HAdmissible(g, n, path);
    forall i | 0 <= i < |marked| ensures marked[i] in s.gScore && marked[i] != end {
      assert w[i + 1] == marked[i] && w[0] == end;
    }
  }

  /** The colours `Finish` leaves: the walked cells but `start` are path
      cells, `end` and `start` get their roles back, unknown cells keep
      their grid colour. */
  lemma FinishView(g: Grid, n: nat, start: Pos, end: Pos, s: State, marked: seq<Pos>, view: Grid, v: Grid)
    requires WellFormed(g, n) && InBounds(start, n) && InBounds(end, n)
    requires ViewOk(g, n, start, s) && start in s.gScore && end in s.gScore
    requires forall p :: p in marked ==> p in s.gScore && p != end
    requires WellFormed(view, n) && SameLayout(s.view, view, n)
    requires forall p :: p in marked ==> InBounds(p, n) && At(view, n, p).color == Path
    requires forall p :: InBounds(p, n) && p !in marked ==> At(view, n, p) == At(s.view, n, p)
    requires v == SetColor(SetColor(view, n, end, End), n, start, Start)
    ensures WellFormed(v, n) && SameLayout(g, v, n)
    ensures At(v, n, start).color == Start
    ensures start != end ==> At(v, n, end).color == End
    ensures forall p :: p in marked && p != start ==> At(v, n, p).color == Path
    ensures forall p :: InBounds(p, n) && p !in s.gScore ==> At(v, n, p) == At(g, n, p)
  {
    var v1 := SetColor(view, n, end, End);
    SameLayoutTrans(g, s.view, view, n);
    SameLayoutTrans(g, view, v1, n);
    SameLayoutTrans(g, v1, v, n);
    forall p | p in marked && p != start ensures At(v, n, p).color == Path {
      assert At(v, n, p) == At(v1, n, p) == At(view, n, p);
    }
    forall p | InBounds(p, n) && p !in s.gScore ensures At(v, n, p) == At(g, n, p) {
      assert p != start && p != end && p !in marked;
      assert At(v, n, p) == At(v1, n, p) == At(view, n, p) == At(s.view, n, p);
    }
  }

  /** The `current == end` branch: `reconstruct_path`, then `end.make_end()`
      and `start.make_start()`. */
  method Finish(g: Grid, n: nat, start: Pos, end: Pos, s: State)
    returns (marked: seq<Pos>, path: seq<Pos>, r: State)
    requires WellFormed(g, n) && InBounds(start, n)
    requires ScoresOk(n, start, end, s) && LinksOk(g, n, s) && ViewOk(g, n, start, s)
    requires end in s.gScore
    ensures r == s.(view := r.view)
    ensures FollowsCameFrom(s.cameFrom, [end] + marked) && ([end] + marked)[|marked|] == start
    ensures Distinct([end] + marked)
    ensures H(start, end) <= |marked| <= s.gScore[end]
    ensures IsWalk(g, n, path) && path[0] == start && path[|path| - 1] == end
    ensures Reversed(path, [end] + marked)
    ensures Reachable(g, n, start, end)
    ensures WellFormed(r.view, n) && SameLayout(g, r.view, n)
    ensures At(r.view, n, start).color == Start
    ensures start != end ==> At(r.view, n, end).color == End
    ensures forall p :: p in marked ==> InBounds(p, n) && p in s.gScore
    ensures forall p :: p in marked && p != start ==> At(r.view, n, p).color == Path
    ensures forall p :: InBounds(p, n) && p !in marked && p != start && p != end ==> At(r.view, n, p) == At(s.view, n, p)
    ensures forall p :: InBounds(p, n) && p !in s.gScore ==> At(r.view, n, p) == At(g, n, p)
  {
    var view;
    marked, path, view := ReconstructPath(s.cameFrom, end, s.view, n, s.gScore);
    FoundFacts(g, n, start, end, s, marked, path);
    var v := SetColor(SetColor(view, n, end, End), n, start, Start);
    FinishView(g, n, start, end, s, marked, view, v);
    r := s.(view := v);
  }

  /** The neighbour loop of `algorithm` for the popped cell `current`:
      relax every neighbour in `update_neighbors` order. Afterwards every
      neighbour of `current` has a known cost, and nothing else changed. */
  method Expand(g: Grid, n: nat, start: Pos, end: Pos, s: State, current: Pos) returns (r: State)
    requires WellFormed(g, n) && InBounds(current, n)
    requires Inv(g, n, start, end, s, Some(current)) && current in s.gScore
    ensures Inv(g, n, start, end, r, Some(current)) && current in r.gScore
    ensures Expanded(g, n, r, current)
    ensures forall p :: p in s.gScore ==> p in r.gScore && r.gScore[p] <= s.gScore[p]
    ensures forall q :: Edge(g, n, current, q) ==> q in r.gScore && r.gScore[q] <= s.gScore[current] + 1
    ensures r == RelaxAll(g, n, end, s, current, Neighbors(g, n, current))
    ensures OnlyNeighborsChange(g, n, s, r, current)
  {
    var nbs := Neighbors(g, n, current);
    r := s;
    var k := 0;
    FoldsToStart(g, n, end, s, current, nbs);
    while k < |nbs|
      invariant FoldsTo(g, n, end, s, r, current, nbs, k)
    {
      FoldsToStep(g, n, end, s, r, current, nbs, k);
      r := Relax(g, n, end, r, current, nbs[k]);
      k := k + 1;
    }
    FoldsToEnd(g, n, end, s, r, current, nbs);
    RelaxAllKeepsInv(g, n, start, end, s, current, nbs);
    ExpandFramed(g, n, end, s, current);
  }

  /** The neighbour loop as a left fold: relax `nbs[0]`, then the rest, in
      list order. */
  function RelaxAll(g: Grid, n: nat, end: Pos, s: State, current: Pos, nbs: seq<Pos>): (r: State)
    requires WellFormed(g, n) && WellFormed(s.view, n) && current in s.gScore
    requires forall q :: q in nbs ==> InBounds(q, n)
    ensures WellFormed(r.view, n)
    ensures r.gScore.Keys == s.gScore.Keys + set p | p in nbs
    decreases |nbs|
  {
    if nbs == [] then s
    else RelaxAll(g, n, end, Relax(g, n, end, s, current, nbs[0]), current, nbs[1..])
  }

  /** Relaxing the neighbours `nbs` one after another keeps the invariant;
      `current` keeps its cost, no cost rises, and every cell of `nbs` ends
      up costing at most `g[current] + 1`. */
  lemma {:induction false} RelaxAllKeepsInv(g: Grid, n: nat, start: Pos, end: Pos, s: State, current: Pos, nbs: seq<Pos>)
    requires WellFormed(g, n) && Inv(g, n, start, end, s, Some(current)) && current in s.gScore
    requires forall q :: q in nbs ==> InBounds(q, n) && Edge(g, n, current, q)
    ensures var r := RelaxAll(g, n, end, s, current, nbs);
      && Inv(g, n, start, end, r, Some(current)) && current in r.gScore
      && r.gScore[current] == s.gScore[current]
      && (forall p :: p in s.gScore ==> p in r.gScore && r.gScore[p] <= s.gScore[p])
      && (forall q :: q in nbs ==> q in r.gScore && r.gScore[q] <= s.gScore[current] + 1)
    decreases |nbs|
  {
    if nbs != [] {
      var s1 := Relax(g, n, end, s, current, nbs[0]);
      RelaxKeepsInv(g, n, start, end, s, current, nbs[0], s1);
      assert forall q :: q in nbs[1..] ==> q in nbs;
      RelaxAllKeepsInv(g, n, start, end, s1, current, nbs[1..]);
    }
  }

  /** `r` is the state after relaxing `nbs[..k]` from `s`: folding the rest
      from `r` ends where folding all of `nbs` from `s` ends. */
  ghost predicate FoldsTo(g: Grid, n: nat, end: Pos, s: State, r: State, current: Pos, nbs: seq<Pos>, k: nat)
  {
    && WellFormed(g, n) && WellFormed(s.view, n) && WellFormed(r.view, n)
    && current in s.gScore && current in r.gScore
    && k <= |nbs| && (forall q :: q in nbs ==> InBounds(q, n))
    && RelaxAll(g, n, end, r, current, nbs[k..]) == RelaxAll(g, n, end, s, current, nbs)
  }

  lemma FoldsToStart(g: Grid, n: nat, end: Pos, s: State, current: Pos, nbs: seq<Pos>)
    requires WellFormed(g, n) && WellFormed(s.view, n) && current in s.gScore
    requires forall q :: q in nbs ==> InBounds(q, n)
    ensures FoldsTo(g, n, end, s, s, current, nbs, 0)
  {
    assert nbs[0..] == nbs;
  }

  lemma FoldsToStep(g: Grid, n: nat, end: Pos, s: State, r: State, current: Pos, nbs: seq<Pos>, k: nat)
    requires FoldsTo(g, n, end, s, r, current, nbs, k) && k < |nbs|
    ensures FoldsTo(g, n, end, s, Relax(g, n, end, r, current, nbs[k]), current, nbs, k + 1)
  {
    assert nbs[k..][1..] == nbs[k + 1..];
  }

  lemma FoldsToEnd(g: Grid, n: nat, end: Pos, s: State, r: State, current: Pos, nbs: seq<Pos>)
    requires FoldsTo(g, n, end, s, r, current, nbs, |nbs|)
    ensures r == RelaxAll(g, n, end, s, current, nbs)
  {
    assert nbs[|nbs|..] == [];
  }

  /** Between the tables `(g0, c0)` and `(g1, c1)` only the cells of
      `touched` gain, lose or change a cost or a link, and every link that
      changed points to `current`. */
  ghost predicate TablesFramed(g0: map<Pos, nat>, c0: map<Pos, Pos>, g1: map<Pos, nat>, c1: map<Pos, Pos>,
                               touched: seq<Pos>, current: Pos)
  {
    && (forall p :: p !in touched ==> (p in g1 <==> p in g0) && (p in c1 <==> p in c0))
    && (forall p :: p in g1 && p in g0 && p !in touched ==> g1[p] == g0[p])
    && (forall p :: p in c1 && p in c0 && p !in touched ==> c1[p] == c0[p])
    && (forall p :: p in c1 && !(p in c0 && c1[p] == c0[p]) ==> c1[p] == current)
  }

  /** Between the colourings `v0` and `v1` only the cells of `touched` change. */
  ghost predicate ViewFramed(v0: Grid, v1: Grid, n: nat, touched: seq<Pos>)
  {
    && WellFormed(v0, n) && WellFormed(v1, n)
    && forall p :: InBounds(p, n) && p !in touched ==> At(v1, n, p) == At(v0, n, p)
  }

  lemma TablesFramedTrans(g0: map<Pos, nat>, c0: map<Pos, Pos>, g1: map<Pos, nat>, c1: map<Pos, Pos>,
                          g2: map<Pos, nat>, c2: map<Pos, Pos>, t1: seq<Pos>, t2: seq<Pos>, current: Pos)
    requires TablesFramed(g0, c0, g1, c1, t1, current) && TablesFramed(g1, c1, g2, c2, t2, current)
    ensures TablesFramed(g0, c0, g2, c2, t1 + t2, current)
  {
  }

  lemma ViewFramedTrans(v0: Grid, v1: Grid, v2: Grid, n: nat, t1: seq<Pos>, t2: seq<Pos>)
    requires ViewFramed(v0, v1, n, t1) && ViewFramed(v1, v2, n, t2)
    ensures ViewFramed(v0, v2, n, t1 + t2)
  {
  }

  /** One relaxation touches only the neighbour it relaxes, and links it to
      `current` if it links it at all. */
  lemma RelaxTouchesOnly(g: Grid, n: nat, end: Pos, s: State, current: Pos, nb: Pos)
    requires WellFormed(g, n) && WellFormed(s.view, n) && InBounds(nb, n) && current in s.gScore
    ensures TablesFramed(s.gScore, s.cameFrom, Relax(g, n, end, s, current, nb).gScore,
                         Relax(g, n, end, s, current, nb).cameFrom, [nb], current)
    ensures ViewFramed(s.view, Relax(g, n, end, s, current, nb).view, n, [nb])
  {
  }

  /** The whole neighbour loop touches only the cells it relaxes. */
  lemma {:induction false} RelaxAllFramed(g: Grid, n: nat, end: Pos, s: State, current: Pos, nbs: seq<Pos>)
    requires WellFormed(g, n) && WellFormed(s.view, n) && current in s.gScore
    requires forall q :: q in nbs ==> InBounds(q, n)
    ensures TablesFramed(s.gScore, s.cameFrom, RelaxAll(g, n, end, s, current, nbs).gScore,
                         RelaxAll(g, n, end, s, current, nbs).cameFrom, nbs, current)
    ensures ViewFramed(s.view, RelaxAll(g, n, end, s, current, nbs).view, n, nbs)
    decreases |nbs|
  {
    if nbs != [] {
      var s1 := Relax(g, n, end, s, current, nbs[0]);
      var r := RelaxAll(g, n, end, s1, current, nbs[1..]);
      RelaxTouchesOnly(g, n, end, s, current, nbs[0]);
      RelaxAllFramed(g, n, end, s1, current, nbs[1..]);
      TablesFramedTrans(s.gScore, s.cameFrom, s1.gScore, s1.cameFrom, r.gScore, r.cameFrom, [nbs[0]], nbs[1..], current);
      ViewFramedTrans(s.view, s1.view, r.view, n, [nbs[0]], nbs[1..]);
      assert [nbs[0]] + nbs[1..] == nbs;
    }
  }

  /** Expanding `current` from `s` to `r` touches only its neighbours: a
      cell that is not a neighbour keeps its cost, link and colour, and every
      link that changed points to `current`. */
  ghost predicate OnlyNeighborsChange(g: Grid, n: nat, s: State, r: State, current: Pos)
    requires WellFormed(g, n) && WellFormed(s.view, n) && WellFormed(r.view, n)
  {
    && (forall p :: !Edge(g, n, current, p) ==> (p in r.gScore <==> p in s.gScore) && (p in r.cameFrom <==> p in s.cameFrom))
    && (forall p :: p in r.gScore && p in s.gScore && !Edge(g, n, current, p) ==> r.gScore[p] == s.gScore[p])
    && (forall p :: p in r.cameFrom && p in s.cameFrom && !Edge(g, n, current, p) ==> r.cameFrom[p] == s.cameFrom[p])
    && (forall p :: p in r.cameFrom && !(p in s.cameFrom && r.cameFrom[p] == s.cameFrom[p]) ==> r.cameFrom[p] == current)
    && (forall p :: InBounds(p, n) && !Edge(g, n, current, p) ==> At(r.view, n, p) == At(s.view, n, p))
  }

  /** The neighbour loop of `current` touches only its neighbours. */
  lemma ExpandFramed(g: Grid, n: nat, end: Pos, s: State, current: Pos)
    requires WellFormed(g, n) && WellFormed(s.view, n) && InBounds(current, n) && current in s.gScore
    ensures OnlyNeighborsChange(g, n, s, RelaxAll(g, n, end, s, current, Neighbors(g, n, current)), current)
  {
    var nbs := Neighbors(g, n, current);
    RelaxAllFramed(g, n, end, s, current, nbs);
  }

  /** The main loop of `algorithm` up to its `return`: pop, stop if `end`
      was popped, otherwise expand and close. The loop runs at most `fuel`
      times. On `Found`, `end` has just been popped. */
  method Search(g: Grid, n: nat, start: Pos, end: Pos, fuel: nat)
    returns (outcome: Outcome, s: State, ghost before: State)
    requires WellFormed(g, n) && InBounds(start, n) && InBounds(end, n)
    ensures Inv(g, n, start, end, s, if outcome.Found? then Some(end) else None)
    ensures outcome.Found? ==> end in s.gScore && end !in s.openHash
    ensures outcome.Found? ==>
              Inv(g, n, start, end, before, None) && |before.queue| > 0 && Pop(g, n, start, end, before) == (end, s)
    ensures outcome.Exhausted? ==> s.queue == []
  {
    s := Init(g, n, start, end);
    before := s;
    outcome := Exhausted;
    var steps := fuel;
    while |s.queue| > 0
      invariant Inv(g, n, start, end, s, None)
      decreases steps
    {
      if steps == 0 {
        outcome := OutOfFuel;
        break;
      }
      steps := steps - 1;
      before := s;
      var popped := Pop(g, n, start, end, s);
      var current := popped.0;
      if current == end {
        outcome, s := Found, popped.1;
        break;
      }
      s := Expand(g, n, start, end, popped.1, current);
      var s' := Close(n, start, s, current);
      CloseKeepsInv(g, n, start, end, s, current);
      s := s';
    }
  }

  /** `algorithm(draw, grid, start, end)`, with the neighbour lists taken
      from `g` (they are computed from the colours before the run) and
      `draw` a no-op. The loop runs at most `fuel` times. */
  method Algorithm(g: Grid, n: nat, start: Pos, end: Pos, fuel: nat)
    returns (outcome: Outcome, marked: seq<Pos>, path: seq<Pos>, s: State)
    requires WellFormed(g, n) && InBounds(start, n) && InBounds(end, n)
    ensures ScoresOk(n, start, end, s) && LinksOk(g, n, s)
    ensures WellFormed(s.view, n) && SameLayout(g, s.view, n)
    ensures forall p :: InBounds(p, n) && IsBarrier(g, n, p) && p != start ==>
              At(s.view, n, p) == At(g, n, p)
    ensures forall p :: InBounds(p, n) && p !in s.gScore ==> At(s.view, n, p) == At(g, n, p)
    ensures outcome.Found? ==>
              && end in s.gScore
              && FollowsCameFrom(s.cameFrom, [end] + marked)
              && ([end] + marked)[|marked|] == start
              && Distinct([end] + marked)
              && H(start, end) <= |marked| <= s.gScore[end]
              && IsWalk(g, n, path) && path[0] == start && path[|path| - 1] == end
              && Reversed(path, [end] + marked) && Distinct(path)
              && Reachable(g, n, start, end)
    ensures outcome.Found? ==>
              && At(s.view, n, start).color == Start
              && (start != end ==> At(s.view, n, end).color == End)
              && (forall p :: p in marked ==> InBounds(p, n))
              && (forall p :: p in marked && p != start ==> At(s.view, n, p).color == Path)
    ensures outcome.Exhausted? ==> !Reachable(g, n, start, end)
    ensures outcome.Exhausted? ==> s.queue == [] && s.openHash == {} && end !in s.gScore
    ensures outcome.Exhausted? ==> At(s.view, n, end) == At(g, n, end)
    ensures !outcome.Found? ==> At(s.view, n, start) == At(g, n, start) && marked == [] && path == []
  {
    ghost var before;
    outcome, s, before := Search(g, n, start, end, fuel);
    KnownCellsOpen(g, n, start, end, s);
    marked, path := [], [];
    if outcome.Found? {
      var r;
      marked, path, r := Finish(g, n, start, end, s);
      ReversedDistinct(path, [end] + marked);
      TablesOnly(g, n, start, end, s, r);
      s := r;
    } else if outcome.Exhausted? {
      ExhaustedMeansUnreachable(g, n, start, end, s);
    }
  }

}

=== FILE: clicks.dfy ===
/** The editing side of the visualiser: mapping a mouse position to a cell,
    the left-click and right-click selection rules of the event loop, and
    the random maze of the `r` key. */
module Clicks {
  import opened Options
  import opened Positions
  import opened Grid

  /** Python's `a // b`: the floor of `a / b`, for either sign of `b`.
      Dafny's `/` rounds towards the floor only for a positive divisor. */
  function FloorDiv(a: int, b: int): (q: int)
    requires b != 0
    ensures b > 0 ==> q * b <= a < q * b + b
    ensures b < 0 ==> q * b + b < a <= q * b
  {
    if b > 0 then a / b else (-a) / (-b)
  }

  /** A floor is determined by the bracket it sits in. */
  lemma FloorUnique(a: int, b: int, q: int)
    requires b > 0 && q * b <= a < q * b + b
    ensures FloorDiv(a, b) == q
  {
    var r := FloorDiv(a, b);
    if r < q {
      BracketsOrdered(r, q, b);
    } else if r > q {
      BracketsOrdered(q, r, b);
    }
  }

  /** For a positive width `b`, band `r` ends where a later band `q` may begin. */
  lemma BracketsOrdered(r: int, q: int, b: int)
    requires b > 0 && r < q
    ensures r * b + b <= q * b
  {
    MulMonotone(r + 1, q, b);
    assert (r + 1) * b == r * b + b;
  }

  lemma MulMonotone(a: int, c: int, b: int)
    requires a <= c && b > 0
    ensures a * b <= c * b
  {
    assert c * b - a * b == (c - a) * b;
  }

  /** pygame's mouse position tuple, which the event loop unpacks as `y, x`:
      its first component picks the row and lines up with `Node.x`. */
  datatype MousePos = MousePos(y: int, x: int)

  /** `get_clicked_pos(pos, rows, width)`. Both floor divisions raise
      ZeroDivisionError when the divisor is 0 (no rows, or a window narrower
      than the number of rows); that is `None`. Otherwise the cell is the
      one whose pixel band contains each coordinate (for a negative width
      the bands run downwards, as Python's floor division makes them). */
  function GetClickedPos(pos: MousePos, rows: int, width: int): (r: Option<Pos>)
    ensures r.None? <==> rows == 0 || FloorDiv(width, rows) == 0
    ensures r.Some? && FloorDiv(width, rows) > 0 ==>
              var gap := FloorDiv(width, rows);
              && r.value.row * gap <= pos.y < r.value.row * gap + gap
              && r.value.col * gap <= pos.x < r.value.col * gap + gap
    ensures r.Some? && FloorDiv(width, rows) < 0 ==>
              var gap := FloorDiv(width, rows);
              && r.value.row * gap + gap < pos.y <= r.value.row * gap
              && r.value.col * gap + gap < pos.x <= r.value.col * gap
  {
    if rows == 0 then None
    else
      var gap := FloorDiv(width, rows);
      if gap == 0 then None
      else Some(Pos(FloorDiv(pos.y, gap), FloorDiv(pos.x, gap)))
  }

  /** `get_clicked_pos` inverts the layout of `make_grid`: any pixel of
      the square of node `p` maps back to `p`. */
  lemma ClickInvertsLayout(g: Grid, n: nat, width: int, p: Pos, dy: int, dx: int)
    requires n > 0 && FloorDiv(width, n) > 0
    requires WellFormed(g, n) && LaidOut(g, n, FloorDiv(width, n)) && InBounds(p, n)
    requires 0 <= dy < FloorDiv(width, n) && 0 <= dx < FloorDiv(width, n)
    ensures GetClickedPos(MousePos(At(g, n, p).x + dy, At(g, n, p).y + dx), n, width) == Some(p)
  {
    var gap := FloorDiv(width, n);
    FloorUnique(p.row * gap + dy, gap, p.row);
    FloorUnique(p.col * gap + dx, gap, p.col);
  }

  /** A position inside the drawn square `[0, rows * gap)` on both axes
      maps to a cell of the grid. */
  lemma ClickInRange(pos: MousePos, rows: nat, width: int)
    requires rows > 0 && FloorDiv(width, rows) > 0
    requires 0 <= pos.y < rows * FloorDiv(width, rows)
    requires 0 <= pos.x < rows * FloorDiv(width, rows)
    ensures GetClickedPos(pos, rows, width).Some?
    ensures InBounds(GetClickedPos(pos, rows, width).value, rows)
  {
    var gap := FloorDiv(width, rows);
    var p := GetClickedPos(pos, rows, width).value;
    BandBelow(pos.y, gap, p.row, rows);
    BandBelow(pos.x, gap, p.col, rows);
  }

  /** The band `q` holding a coordinate in `[0, rows * gap)` is in `[0, rows)`. */
  lemma BandBelow(a: int, gap: int, q: int, rows: int)
    requires gap > 0 && 0 <= a < rows * gap && q * gap <= a < q * gap + gap
    ensures 0 <= q < rows
  {
    if q < 0 {
      BracketsOrdered(q, 0, gap);
    } else if q >= rows {
      MulMonotone(rows, q, gap);
    }
  }

  /** The event loop's `ROWS` and the window's `WIDTH`. */
  const Rows: nat := 50
  const Width: int := 800

  /** In the 800-pixel window every mouse position lands on one of the 50
      rows and columns, so `grid[row][col]` never goes out of range there. */
  lemma WindowClicksInGrid(pos: MousePos)
    requires 0 <= pos.y < Width && 0 <= pos.x < Width
    ensures GetClickedPos(pos, Rows, Width).Some?
    ensures InBounds(GetClickedPos(pos, Rows, Width).value, Rows)
  {
    assert FloorDiv(Width, Rows) == 16;
    ClickInRange(pos, Rows, Width);
  }

  /** The event loop's editing state: the grid and the chosen start and end. */
  datatype Selection = Selection(grid: Grid, start: Option<Pos>, end: Option<Pos>)

  /** The colours mirror the selection: a node is coloured Start exactly
      when it is the chosen start, and End exactly when it is the chosen end. */
  ghost predicate Valid(sel: Selection, n: nat) {
    && WellFormed(sel.grid, n)
    && (sel.start.Some? ==> InBounds(sel.start.value, n))
    && (sel.end.Some? ==> InBounds(sel.end.value, n))
    && (forall q :: InBounds(q, n) ==> (At(sel.grid, n, q).color == Start <==> sel.start == Some(q)))
    && (forall q :: InBounds(q, n) ==> (At(sel.grid, n, q).color == End <==> sel.end == Some(q)))
  }

  /** When both are chosen, start and end are different cells. */
  lemma ValidDistinct(sel: Selection, n: nat)
    requires Valid(sel, n) && sel.start.Some? && sel.end.Some?
    ensures sel.start.value != sel.end.value
  {
    var p := sel.start.value;
    assert At(sel.grid, n, p).color == Start;
  }

  /** A fresh all-white grid with nothing chosen, as at start-up and after
      the `c` key. */
  lemma FreshSelectionValid(g: Grid, n: nat)
    requires WellFormed(g, n)
    requires forall p :: InBounds(p, n) ==> At(g, n, p).color == Free
    ensures Valid(Selection(g, None, None), n)
  {
  }

  /** A left click on cell `p`: it becomes the start if none is chosen,
      else the end if none is chosen, else a barrier, except that clicking
      the start or the end does nothing. */
  function LeftClick(sel: Selection, n: nat, p: Pos): (r: Selection)
    requires WellFormed(sel.grid, n) && InBounds(p, n)
    ensures WellFormed(r.grid, n) && SameLayout(sel.grid, r.grid, n)
    ensures forall q :: InBounds(q, n) && q != p ==> At(r.grid, n, q) == At(sel.grid, n, q)
    ensures sel.start.Some? ==> r.start == sel.start
    ensures sel.end.Some? ==> r.end == sel.end
    ensures sel.start == Some(p) || sel.end == Some(p) ==> r == sel
    ensures sel.start.None? && sel.end != Some(p) ==>
              r.start == Some(p) && r.end == sel.end && At(r.grid, n, p).color == Start
    ensures sel.start.Some? && sel.start != Some(p) && sel.end.None? ==>
              r.start == sel.start && r.end == Some(p) && At(r.grid, n, p).color == End
    ensures sel.start.Some? && sel.end.Some? && sel.start != Some(p) && sel.end != Some(p) ==>
              r.start == sel.start && r.end == sel.end && At(r.grid, n, p).color == Barrier
  {
    if sel.start.None? && sel.end != Some(p) then
      Selection(SetColor(sel.grid, n, p, Start), Some(p), sel.end)
    else if sel.end.None? && sel.start != Some(p) then
      Selection(SetColor(sel.grid, n, p, End), sel.start, Some(p))
    else if sel.end != Some(p) && sel.start != Some(p) then
      Selection(SetColor(sel.grid, n, p, Barrier), sel.start, sel.end)
    else
      sel
  }

  /** A left click keeps the colours in step with the selection; in
      particular it never turns the start or the end into a barrier. */
  lemma LeftClickKeepsValid(sel: Selection, n: nat, p: Pos)
    requires Valid(sel, n) && InBounds(p, n)
    ensures Valid(LeftClick(sel, n, p), n)
    ensures sel.start.Some? ==> At(LeftClick(sel, n, p).grid, n, sel.start.value).color == Start
    ensures sel.end.Some? ==> At(LeftClick(sel, n, p).grid, n, sel.end.value).color == End
  {
    var r := LeftClick(sel, n, p);
    forall q | InBounds(q, n)
      ensures (At(r.grid, n, q).color == Start <==> r.start == Some(q))
      ensures (At(r.grid, n, q).color == End <==> r.end == Some(q))
    {
      if q != p {
        assert At(r.grid, n, q) == At(sel.grid, n, q);
      }
    }
  }

  /** A right click on cell `p` resets it to white and forgets it as the
      start or the end. */
  function RightClick(sel: Selection, n: nat, p: Pos): (r: Selection)
    requires WellFormed(sel.grid, n) && InBounds(p, n)
    ensures WellFormed(r.grid, n) && SameLayout(sel.grid, r.grid, n)
    ensures At(r.grid, n, p).color == Free
    ensures forall q :: InBounds(q, n) && q != p ==> At(r.grid, n, q) == At(sel.grid, n, q)
    ensures r.start.Some? <==> sel.start.Some? && sel.start != Some(p)
    ensures r.start.Some? ==> r.start == sel.start
    ensures r.end.Some? <==> sel.end.Some? && sel.end != Some(p)
    ensures r.end.Some? ==> r.end == sel.end
  {
    Selection(SetColor(sel.grid, n, p, Free),
              if sel.start == Some(p) then None else sel.start,
              if sel.end == Some(p) then None else sel.end)
  }

  /** A right click keeps the colours in step with the selection. */
  lemma RightClickKeepsValid(sel: Selection, n: nat, p: Pos)
    requires Valid(sel, n) && InBounds(p, n)
    ensures Valid(RightClick(sel, n, p), n)
  {
    var r := RightClick(sel, n, p);
    forall q | InBounds(q, n)
      ensures (At(r.grid, n, q).color == Start <==> r.start == Some(q))
      ensures (At(r.grid, n, q).color == End <==> r.end == Some(q))
    {
      if q != p {
        assert At(r.grid, n, q) == At(sel.grid, n, q);
      }
    }
  }

  /** Right-clicking the start and then left-clicking the same cell puts
      the start back; the same holds for the end while a start is chosen. */
  lemma RightThenLeftRestores(sel: Selection, n: nat, p: Pos)
    requires Valid(sel, n) && InBounds(p, n)
    requires sel.start == Some(p) || (sel.end == Some(p) && sel.start.Some?)
    ensures LeftClick(RightClick(sel, n, p), n, p) == sel
  {
    var mid := RightClick(sel, n, p);
    SetColorTwice(sel.grid, n, p, Free, At(sel.grid, n, p).color);
    SetColorSame(sel.grid, n, p, At(sel.grid, n, p).color);
  }

  /** The random numbers `ran_maze` draws, one per node in row-major order;
      each row holds `n` draws. */
  predicate RollsFit(rolls: seq<seq<int>>, n: nat) {
    |rolls| == n && forall i :: 0 <= i < n ==> |rolls[i]| == n
  }

  /** The rule of `ran_maze` at cell `p`: it becomes a barrier when its draw
      is below 4 and it is neither the start nor the end; otherwise it keeps
      its colour. */
  predicate MazeRule(g: Grid, r: Grid, n: nat, rolls: seq<seq<int>>, p: Pos)
    requires WellFormed(g, n) && WellFormed(r, n) && RollsFit(rolls, n) && InBounds(p, n)
  {
    At(r, n, p).color ==
      if rolls[p.row][p.col] < 4 && !At(g, n, p).IsStart() && !At(g, n, p).IsEnd() then Barrier
      else At(g, n, p).color
  }

  /** `r` is `g` after `ran_maze` with the given draws. */
  ghost predicate MazeOf(g: Grid, r: Grid, n: nat, rolls: seq<seq<int>>)
    requires WellFormed(g, n) && RollsFit(rolls, n)
  {
    && WellFormed(r, n)
    && SameLayout(g, r, n)
    && forall p :: InBounds(p, n) ==> MazeRule(g, r, n, rolls, p)
  }

  /** `ran_maze(grid, rows, width)` with `random.randint(1, 10)` replaced by
      the draws `rolls`. The loop tests each node's current colour, which is
      still its original one since every node is visited once. */
  method RanMaze(g: Grid, n: nat, rolls: seq<seq<int>>) returns (r: Grid)
    requires WellFormed(g, n) && RollsFit(rolls, n)
    ensures MazeOf(g, r, n, rolls)
  {
    r := g;
    var i := 0;
    while i < n
      invariant 0 <= i <= n
      invariant WellFormed(r, n) && SameLayout(g, r, n)
      invariant forall p :: InBounds(p, n) && p.row < i ==> MazeRule(g, r, n, rolls, p)
      invariant forall p :: InBounds(p, n) && p.row >= i ==> At(r, n, p) == At(g, n, p)
    {
      var j := 0;
      while j < n
        invariant 0 <= j <= n
        invariant WellFormed(r, n) && SameLayout(g, r, n)
        invariant forall p :: InBounds(p, n) && (p.row < i || (p.row == i && p.col < j)) ==> MazeRule(g, r, n, rolls, p)
        invariant forall p :: InBounds(p, n) && (p.row > i || (p.row == i && p.col >= j)) ==> At(r, n, p) == At(g, n, p)
      {
        var p := Pos(i, j);
        if rolls[i][j] < 4 && !At(r, n, p).IsStart() && !At(r, n, p).IsEnd() {
          var r' := SetColor(r, n, p, Barrier);
          SameLayoutTrans(g, r, r', n);
          r := r';
        }
        j := j + 1;
      }
      i := i + 1;
    }
  }

  /** The random maze keeps the colours in step with the selection: the
      start and the end are never barred. */
  lemma MazeKeepsValid(sel: Selection, n: nat, rolls: seq<seq<int>>, r: Grid)
    requires Valid(sel, n) && RollsFit(rolls, n) && MazeOf(sel.grid, r, n, rolls)
    ensures Valid(Selection(r, sel.start, sel.end), n)
  {
    forall q | InBounds(q, n)
      ensures (At(r, n, q).color == Start <==> sel.start == Some(q))
      ensures (At(r, n, q).color == End <==> sel.end == Some(q))
    {
      assert MazeRule(sel.grid, r, n, rolls, q);
    }
  }

}

=== FILE: frontier.dfy ===
/** The A* frontier: a priority queue of `(f, count, node)` entries, popped
    in Python tuple order. Only its observable min-pop is modelled; the
    heap layout inside `PriorityQueue` is not. */
module Frontier {
  import opened Positions

  /** One queue entry `(f, count, node)`. */
  datatype Entry = Entry(f: nat, count: nat, pos: Pos)

  /** `Node.__lt__`: it always answers False. */
  predicate NodeLess(a: Pos, b: Pos) {
    false
  }

  /** Python's `<` on `(f, count, node)` tuples: the first differing
      component decides, and equal nodes make equal tuples. */
  predicate Less(a: Entry, b: Entry) {
    || a.f < b.f
    || (a.f == b.f && a.count < b.count)
    || (a.f == b.f && a.count == b.count && a.pos != b.pos && NodeLess(a.pos, b.pos))
  }

  /** The order on `(f, count)` alone, without consulting the node. */
  predicate KeyLess(a: Entry, b: Entry) {
    a.f < b.f || (a.f == b.f && a.count < b.count)
  }

  /** No two entries share a tie-break counter. */
  predicate CountsDistinct(q: seq<Entry>) {
    forall i, j :: 0 <= i < j < |q| ==> q[i].count != q[j].count
  }

  /** No cell has two entries. */
  predicate PosDistinct(q: seq<Entry>) {
    forall i, j :: 0 <= i < j < |q| ==> q[i].pos != q[j].pos
  }

  /** The cells that have an entry in the queue, collected from the back. */
  function Cells(q: seq<Entry>): set<Pos>
    decreases |q|
  {
    if |q| == 0 then {} else Cells(q[..|q| - 1]) + {q[|q| - 1].pos}
  }

  /** A cell has an entry exactly when some index holds it. */
  lemma {:induction false} CellsMembers(q: seq<Entry>)
    ensures forall i :: 0 <= i < |q| ==> q[i].pos in Cells(q)
    ensures forall p :: p in Cells(q) ==> exists i :: 0 <= i < |q| && q[i].pos == p
    decreases |q|
  {
    if |q| > 0 {
      var q' := q[..|q| - 1];
      CellsMembers(q');
      assert forall i :: 0 <= i < |q'| ==> q'[i] == q[i];
    }
  }

  /** `q[i]` is a minimum: no entry is strictly smaller. */
  predicate Minimal(q: seq<Entry>, i: int) {
    0 <= i < |q| && forall j :: 0 <= j < |q| ==> !Less(q[j], q[i])
  }

  /** With distinct counters, two distinct entries are always ordered by
      `(f, count)`, so `Node.__lt__` is never consulted. */
  lemma DistinctCountsDecideOrder(q: seq<Entry>, i: int, j: int)
    requires CountsDistinct(q) && 0 <= i < |q| && 0 <= j < |q| && i != j
    ensures Less(q[i], q[j]) <==> KeyLess(q[i], q[j])
    ensures Less(q[i], q[j]) || Less(q[j], q[i])
  {
  }

  /** With distinct counters, the queue has exactly one minimum, so the
      popped entry does not depend on how the heap is laid out. */
  lemma MinimalUnique(q: seq<Entry>, i: int, j: int)
    requires CountsDistinct(q) && Minimal(q, i) && Minimal(q, j)
    ensures i == j
  {
    if i != j {
      DistinctCountsDecideOrder(q, i, j);
    }
  }

  /** The index of a minimal entry of a non-empty queue. */
  function MinIndex(q: seq<Entry>): (i: nat)
    requires |q| > 0
    ensures Minimal(q, i)
  {
    if |q| == 1 then 0
    else
      var k := MinIndex(q[..|q| - 1]);
      if Less(q[|q| - 1], q[k]) then |q| - 1 else k
  }

  /** The result of `get()`: the entry taken and the queue left behind. */
  datatype Popped = Popped(entry: Entry, rest: seq<Entry>)

  /** `open_set.get()`: remove and return a minimal entry. */
  function PopMin(q: seq<Entry>): (r: Popped)
    requires |q| > 0
    ensures r.entry in q
    ensures forall e :: e in q ==> !Less(e, r.entry)
    ensures multiset(r.rest) + multiset{r.entry} == multiset(q)
  {
    var i := MinIndex(q);
    assert q == q[..i] + [q[i]] + q[i + 1..];
    Popped(q[i], q[..i] + q[i + 1..])
  }

  /** The cells of a concatenation are the cells of its parts. */
  lemma {:induction false} CellsConcat(a: seq<Entry>, b: seq<Entry>)
    ensures Cells(a + b) == Cells(a) + Cells(b)
    decreases |b|
  {
    if |b| > 0 {
      var b' := b[..|b| - 1];
      assert (a + b)[..|a + b| - 1] == a + b';
      CellsConcat(a, b');
    } else {
      assert a + b == a;
    }
  }

  /** Removing one entry keeps both distinctness properties, and every
      remaining entry was in the queue. */
  lemma RemoveKeepsDistinct(q: seq<Entry>, i: int)
    requires 0 <= i < |q| && PosDistinct(q) && CountsDistinct(q)
    ensures PosDistinct(q[..i] + q[i + 1..]) && CountsDistinct(q[..i] + q[i + 1..])
    ensures forall e :: e in q[..i] + q[i + 1..] ==> e in q
  {
    var rest := q[..i] + q[i + 1..];
    assert forall k :: 0 <= k < |rest| ==> rest[k] == q[if k < i then k else k + 1];
  }

  lemma CellsSplit(a: seq<Entry>, x: Entry, b: seq<Entry>)
    ensures Cells(a + [x] + b) == Cells(a) + {x.pos} + Cells(b)
  {
    CellsConcat(a + [x], b);
    CellsConcat(a, [x]);
    assert [x][..0] == [];
  }

  /** The cells before index `i`, the cell at `i` and the cells after it
      make up the queue's cells. */
  lemma CellsAround(q: seq<Entry>, i: int)
    requires 0 <= i < |q|
    ensures Cells(q) == Cells(q[..i]) + {q[i].pos} + Cells(q[i + 1..])
  {
    var a, b := q[..i], q[i + 1..];
    assert q == a + [q[i]] + b;
    CellsSplit(a, q[i], b);
  }

  /** With no duplicate cells, the cell at `i` occurs nowhere else. */
  lemma CellOnlyAt(q: seq<Entry>, i: int)
    requires 0 <= i < |q| && PosDistinct(q)
    ensures q[i].pos !in Cells(q[..i]) && q[i].pos !in Cells(q[i + 1..])
  {
    var a, b := q[..i], q[i + 1..];
    CellsMembers(a);
    CellsMembers(b);
    forall k | 0 <= k < |a| ensures a[k].pos != q[i].pos {
      assert a[k] == q[k];
    }
    forall k | 0 <= k < |b| ensures b[k].pos != q[i].pos {
      assert b[k] == q[i + 1 + k];
    }
  }

  /** Removing the entry at `i` removes exactly its cell. */
  lemma RemoveCells(q: seq<Entry>, i: int)
    requires 0 <= i < |q| && PosDistinct(q)
    ensures Cells(q[..i] + q[i + 1..]) == Cells(q) - {q[i].pos}
  {
    CellsAround(q, i);
    CellsConcat(q[..i], q[i + 1..]);
    CellOnlyAt(q, i);
  }

  /** Popping keeps the queue free of duplicates and removes exactly the
      popped entry's cell. */
  lemma PopMinCells(q: seq<Entry>)
    requires |q| > 0 && PosDistinct(q) && CountsDistinct(q)
    ensures PosDistinct(PopMin(q).rest) && CountsDistinct(PopMin(q).rest)
    ensures Cells(PopMin(q).rest) == Cells(q) - {PopMin(q).entry.pos}
    ensures forall e :: e in PopMin(q).rest ==> e in q
  {
    var i := MinIndex(q);
    RemoveKeepsDistinct(q, i);
    RemoveCells(q, i);
  }

  /** `open_set.put(e)`. */
  function Push(q: seq<Entry>, e: Entry): (r: seq<Entry>)
    ensures multiset(r) == multiset(q) + multiset{e}
    ensures Cells(r) == Cells(q) + {e.pos}
  {
    assert (q + [e])[..|q|] == q;
    q + [e]
  }

  /** A push of a fresh cell under a fresh, larger counter keeps both
      distinctness properties. */
  lemma PushKeepsDistinct(q: seq<Entry>, e: Entry)
    requires PosDistinct(q) && CountsDistinct(q)
    requires e.pos !in Cells(q)
    requires forall x :: x in q ==> x.count < e.count
    ensures PosDistinct(Push(q, e)) && CountsDistinct(Push(q, e))
  {
    var r := Push(q, e);
    CellsMembers(q);
    forall i, j | 0 <= i < j < |r| ensures r[i].pos != r[j].pos && r[i].count != r[j].count {
      assert r[i] == q[i];
    }
  }

}

=== FILE: grid.dfy ===
/** The grid of nodes: colour roles, node layout, `make_grid` and
    `update_neighbors`. */
module Grid {
  import opened Options
  import opened Positions

  /** The colour of a node, named by the role it encodes:
      WHITE free, RED closed, GREEN open, BLACK barrier, ORANGE start,
      TURQUOISE end, PURPLE path. Only equality of roles matters. */
  datatype Color = Free | Closed | Open | Barrier | Start | End | Path

  /** A node: its coordinates, its pixel origin `(x, y)`, its colour, its
      pixel width and the number of rows of the grid it belongs to. */
  datatype Node = Node(row: nat, col: nat, x: int, y: int, color: Color, width: nat, totalRows: nat)
  {
    function GetPos(): Pos { Pos(row, col) }

    predicate IsBarrier() { color == Barrier }
    predicate IsStart() { color == Start }
    predicate IsEnd() { color == End }

    /** Every `make_*` setter and `reset` (which is `WithColor(Free)`). */
    function WithColor(c: Color): (r: Node)
      ensures r.color == c
      ensures r.GetPos() == GetPos()
    {
      this.(color := c)
    }
  }

  /** A grid is a sequence of rows; `grid[i][j]` is the node at row `i`, column `j`. */
  type Grid = seq<seq<Node>>

  /** `g` is an `n` by `n` grid whose node at `[i][j]` knows it is at `(i, j)`
      on an `n`-row grid. */
  predicate WellFormed(g: Grid, n: nat) {
    && |g| == n
    && (forall i :: 0 <= i < n ==> |g[i]| == n)
    && (forall i, j :: 0 <= i < n && 0 <= j < n ==>
          g[i][j].row == i && g[i][j].col == j && g[i][j].totalRows == n)
  }

  function At(g: Grid, n: nat, p: Pos): (r: Node)
    requires WellFormed(g, n) && InBounds(p, n)
    ensures r.GetPos() == p
  {
    g[p.row][p.col]
  }

  predicate IsBarrier(g: Grid, n: nat, p: Pos)
    requires WellFormed(g, n) && InBounds(p, n)
  {
    At(g, n, p).IsBarrier()
  }

  /** `h` differs from `g` at most in the colours of its nodes. */
  predicate SameLayout(g: Grid, h: Grid, n: nat)
    requires WellFormed(g, n) && WellFormed(h, n)
  {
    forall i, j :: 0 <= i < n && 0 <= j < n ==> h[i][j] == g[i][j].WithColor(h[i][j].color)
  }

  lemma SameLayoutTrans(g: Grid, h: Grid, k: Grid, n: nat)
    requires WellFormed(g, n) && WellFormed(h, n) && WellFormed(k, n)
    requires SameLayout(g, h, n) && SameLayout(h, k, n)
    ensures SameLayout(g, k, n)
  {
  }

  /** Recolour the node at `p` (one of the node's setters, applied in place). */
  function SetColor(g: Grid, n: nat, p: Pos, c: Color): (r: Grid)
    requires WellFormed(g, n) && InBounds(p, n)
    ensures WellFormed(r, n) && SameLayout(g, r, n)
    ensures At(r, n, p).color == c
    ensures forall q {:trigger At(r, n, q)} :: InBounds(q, n) && q != p ==> At(r, n, q) == At(g, n, q)
  {
    g[p.row := g[p.row][p.col := g[p.row][p.col].WithColor(c)]]
  }

  /** Recolouring a node with the colour it already has changes nothing. */
  lemma SetColorSame(g: Grid, n: nat, p: Pos, c: Color)
    requires WellFormed(g, n) && InBounds(p, n) && At(g, n, p).color == c
    ensures SetColor(g, n, p, c) == g
  {
    var r := SetColor(g, n, p, c);
    assert r[p.row] == g[p.row];
  }

  /** Only the last of two recolourings of the same node shows. */
  lemma SetColorTwice(g: Grid, n: nat, p: Pos, c: Color, d: Color)
    requires WellFormed(g, n) && InBounds(p, n)
    ensures SetColor(SetColor(g, n, p, c), n, p, d) == SetColor(g, n, p, d)
  {
    var a := SetColor(SetColor(g, n, p, c), n, p, d);
    var b := SetColor(g, n, p, d);
    assert a[p.row] == b[p.row];
  }

  /** The pixel layout of `make_grid`: node `(i, j)` sits at `(i * gap, j * gap)`
      and is `gap` pixels wide. */
  predicate LaidOut(g: Grid, n: nat, gap: nat)
    requires WellFormed(g, n)
  {
    forall i, j :: 0 <= i < n && 0 <= j < n ==>
      g[i][j].x == i * gap && g[i][j].y == j * gap && g[i][j].width == gap
  }

  /** `make_grid(rows, width)`: `rows` rows of `rows` free nodes, each
      `width // rows` pixels wide. Python raises ZeroDivisionError when
      `rows == 0`, modelled as `None`. */
  method MakeGrid(rows: nat, width: nat) returns (r: Option<Grid>)
    ensures r.None? <==> rows == 0
    ensures r.Some? ==> WellFormed(r.value, rows) && LaidOut(r.value, rows, width / rows)
    ensures r.Some? ==> forall p :: InBounds(p, rows) ==> At(r.value, rows, p).color == Free
  {
    if rows == 0 {
      return None;
    }
    var gap := width / rows;
    var grid: Grid := [];
    var i := 0;
    while i < rows
      invariant 0 <= i <= rows && |grid| == i
      invariant forall a :: 0 <= a < i ==> |grid[a]| == rows
      invariant forall a, b :: 0 <= a < i && 0 <= b < rows ==>
                  grid[a][b] == Node(a, b, a * gap, b * gap, Free, gap, rows)
    {
      var line: seq<Node> := [];
      var j := 0;
      while j < rows
        invariant 0 <= j <= rows && |line| == j
        invariant forall b :: 0 <= b < j ==> line[b] == Node(i, b, i * gap, b * gap, Free, gap, rows)
      {
        line := line + [Node(i, j, i * gap, j * gap, Free, gap, rows)];
        j := j + 1;
      }
      grid := grid + [line];
      i := i + 1;
    }
    return Some(grid);
  }

  /** The reference neighbour relation: `q` is a neighbour of `p` iff both are
      on the grid, `q` is not a barrier and `q` is one step away. */
  predicate Edge(g: Grid, n: nat, p: Pos, q: Pos)
    requires WellFormed(g, n)
  {
    InBounds(p, n) && InBounds(q, n) && !IsBarrier(g, n, q) && H(p, q) == 1
  }

  /** The direction of `q` seen from `p`, in the order `update_neighbors`
      lists them: down 0, up 1, right 2, left 3; anything else 4. */
  function DirRank(p: Pos, q: Pos): nat {
    if q == Pos(p.row + 1, p.col) then 0
    else if q == Pos(p.row - 1, p.col) then 1
    else if q == Pos(p.row, p.col + 1) then 2
    else if q == Pos(p.row, p.col - 1) then 3
    else 4
  }

  /** The directions of `s`, seen from `p`, strictly increase. */
  predicate RankSorted(p: Pos, s: seq<Pos>) {
    forall i, j :: 0 <= i < j < |s| ==> DirRank(p, s[i]) < DirRank(p, s[j])
  }

  lemma RankSortedConcat(p: Pos, s: seq<Pos>, t: seq<Pos>)
    requires RankSorted(p, s) && RankSorted(p, t)
    requires forall x, y :: x in s && y in t ==> DirRank(p, x) < DirRank(p, y)
    ensures RankSorted(p, s + t)
  {
    forall i, j | 0 <= i < j < |s + t|
      ensures DirRank(p, (s + t)[i]) < DirRank(p, (s + t)[j])
    {
      if j < |s| {
      } else if i >= |s| {
        assert (s + t)[i] == t[i - |s|] && (s + t)[j] == t[j - |s|];
      } else {
        assert (s + t)[i] in s && (s + t)[j] in t;
      }
    }
  }

  /** The one-step positions are exactly the four directions. */
  lemma UnitSteps(p: Pos, q: Pos)
    ensures H(p, q) == 1 <==> DirRank(p, q) < 4
  {
  }

  /** `[q]` when `q` is on the grid and not a barrier, else `[]`. */
  function KeepOpen(g: Grid, n: nat, q: Pos): (r: seq<Pos>)
    requires WellFormed(g, n)
    ensures |r| <= 1
    ensures forall x :: x in r <==> x == q && InBounds(q, n) && !IsBarrier(g, n, q)
  {
    if InBounds(q, n) && !IsBarrier(g, n, q) then [q] else []
  }

  /** `update_neighbors`: the node's neighbour list, computed from the
      colours of `g` at call time. */
  function Neighbors(g: Grid, n: nat, p: Pos): (r: seq<Pos>)
    requires WellFormed(g, n) && InBounds(p, n)
    ensures |r| <= 4
    ensures forall q :: q in r <==> Edge(g, n, p, q)
    ensures p !in r
    ensures RankSorted(p, r)
  {
    // The guards `row < total_rows - 1`, `row > 0`, ... are exactly the
    // in-bounds tests of the four candidates.
    var down := KeepOpen(g, n, Pos(p.row + 1, p.col));
    var up := KeepOpen(g, n, Pos(p.row - 1, p.col));
    var right := KeepOpen(g, n, Pos(p.row, p.col + 1));
    var left := KeepOpen(g, n, Pos(p.row, p.col - 1));
    NeighborsFacts(g, n, p, down, up, right, left);
    down + up + right + left
  }

  lemma NeighborsFacts(g: Grid, n: nat, p: Pos, down: seq<Pos>, up: seq<Pos>, right: seq<Pos>, left: seq<Pos>)
    requires WellFormed(g, n) && InBounds(p, n)
    requires down == KeepOpen(g, n, Pos(p.row + 1, p.col))
    requires up == KeepOpen(g, n, Pos(p.row - 1, p.col))
    requires right == KeepOpen(g, n, Pos(p.row, p.col + 1))
    requires left == KeepOpen(g, n, Pos(p.row, p.col - 1))
    ensures forall q :: q in down + up + right + left <==> Edge(g, n, p, q)
    ensures RankSorted(p, down + up + right + left)
  {
    forall q ensures q in down + up + right + left <==> Edge(g, n, p, q) {
      UnitSteps(p, q);
    }
    RankSortedConcat(p, down, up);
    RankSortedConcat(p, down + up, right);
    RankSortedConcat(p, down + up + right, left);
  }

}

=== FILE: options.dfy ===
/** The optional value used for the source's `None`-or-node variables and for
    operations that raise on some inputs. */
module Options {

  datatype Option<+T> = None | Some(value: T)

}

=== FILE: positions.dfy ===
/** Grid positions `(row, col)` and the Manhattan heuristic `h`. */
module Positions {

  /** A cell coordinate; a node's identity in the grid is its position. */
  datatype Pos = Pos(row: int, col: int)

  /** True iff `p` lies on an `n` by `n` grid. */
  predicate InBounds(p: Pos, n: nat) {
    0 <= p.row < n && 0 <= p.col < n
  }

  function Abs(x: int): (r: nat)
    ensures r == x || r == -x
  {
    if x < 0 then -x else x
  }

  /** Manhattan distance between two positions (the heuristic `h`). */
  function H(a: Pos, b: Pos): nat {
    Abs(a.row - b.row) + Abs(a.col - b.col)
  }

  /** `h` is a metric: symmetric, zero exactly on equal positions, and it
      satisfies the triangle inequality. */
  lemma HIsMetric(a: Pos, b: Pos, c: Pos)
    ensures H(a, b) == H(b, a)
    ensures H(a, b) == 0 <==> a == b
    ensures H(a, c) <= H(a, b) + H(b, c)
  {
  }

  /** `h` is consistent: across one grid step it changes by at most one. */
  lemma HConsistent(a: Pos, b: Pos, t: Pos)
    requires H(a, b) == 1
    ensures H(a, t) <= H(b, t) + 1
    ensures H(b, t) <= H(a, t) + 1
  {
    HIsMetric(a, b, t);
    HIsMetric(b, a, t);
  }

}
